=== FILE: README.md ===
# Fine-tuning RoBERTa on UNQOVER with SQuAD: the bookkeeping, verified

`roberta_fine-tuning.py` fine-tunes a RoBERTa question-answering model on
UNQOVER bias examples and, optionally, on a random SQuAD subset. It then
evaluates the model and writes the predictions grouped by example key. This
project models the parts of the script that decide *which examples go
where*:

- `ConcatDataset`, which lays several datasets end to end
  (`concat_dataset.dfy`).
- The list of training indices handed to the batch sampler. With SQuAD, each
  group of `B` indices takes three quarters from UNQOVER and one quarter
  from SQuAD (`train_indices.dfy`).
- The SQuAD subset drawn for each epoch. Every column of the encoding is
  projected on one sample of positions (`squad_subset.dfy`).
- Resuming from a checkpoint. The global step is read back from the
  directory name and split into epochs and steps (`resume.dfy`).
- The counters of the training loop: skipping batches after a resume,
  dropping batches with no relevant example, gradient accumulation, and the
  `max_steps` stop (`training_counters.dfy`).
- How `evaluate` files each prediction under its key in `rs_map`, and how it
  finally reorders the keys by a normalised form (`eval_output.dfy`).

The Python built-ins these rely on are modelled once, in
`python_builtins.dfy`:

- floor `//` and `%`;
- clamped slicing;
- `str.split` and `str.join`;
- string order;
- the stable `sorted`;
- `int()` on a string, and decimal formatting.

The form follows the script:

- `ConcatDataset`, the training loop and `rs_map` are classes or methods
  whose loops are proved against specification functions.
- The index lists are methods with loops.
- Key normalisation, slicing and parsing are functions.

## Model

| member | source | states |
|---|---|---|
| PyBuiltins.FloorDiv | roberta_fine-tuning.py:176 | Python's `a // b` rounds toward negative infinity: `q*b <= a < q*b + b` for a positive divisor, mirrored for a negative one |
| PyBuiltins.FloorMod | roberta_fine-tuning.py:177 | Python's `a % b` satisfies `(a // b)*b + a % b == a` and takes the sign of the divisor |
| PyBuiltins.FloorDivPositive | roberta_fine-tuning.py:176-177 | with a positive divisor, Python's floor division and remainder agree with Euclidean division |
| PyBuiltins.Slice | roberta_fine-tuning.py:105-111 | `s[lo:hi]` clamps both bounds to the length; the result has the clamped length and holds `s[lo + j]` at position `j` |
| PyBuiltins.SliceAdjacent | roberta_fine-tuning.py:109-111 | two adjacent slices make up the slice across both |
| PyBuiltins.PrefixThenSlice | roberta_fine-tuning.py:105-106 | a clamped prefix followed by the next slice is the longer clamped prefix |
| PyBuiltins.NoRepeatsPermutation | roberta_fine-tuning.py:437 | a rearrangement of a list without duplicates has no duplicates |
| PyBuiltins.Split | roberta_fine-tuning.py:174 | `str.split(sep)` gives at least one field, and no field contains the separator |
| PyBuiltins.Join | roberta_fine-tuning.py:434 | definition of `sep.join(fields)`; its properties are in `JoinSplit` and `SplitJoin` |
| PyBuiltins.SplitWithoutSeparator | roberta_fine-tuning.py:174 | text without the separator splits into itself alone |
| PyBuiltins.SplitAround | roberta_fine-tuning.py:174 | splitting `a + sep + b` gives the fields of `a` followed by the fields of `b` |
| PyBuiltins.JoinSplit | roberta_fine-tuning.py:431-434 | joining the fields of a split with the same separator gives the text back |
| PyBuiltins.SplitJoin | roberta_fine-tuning.py:431-434 | splitting a join of separator-free fields gives the fields back |
| PyBuiltins.LexLeq | roberta_fine-tuning.py:436 | definition of `a <= b` on strings: character codes compared from the left, a proper prefix first; its properties are in `LexLeqReflexive`, `LexLeqTotal`, `LexLeqTransitive` and `LexLeqAntisymmetric` |
| PyBuiltins.LexLeqReflexive | roberta_fine-tuning.py:436 | string comparison is reflexive |
| PyBuiltins.LexLeqTotal | roberta_fine-tuning.py:436 | any two strings are comparable |
| PyBuiltins.LexLeqTransitive | roberta_fine-tuning.py:436 | string comparison is transitive |
| PyBuiltins.LexLeqAntisymmetric | roberta_fine-tuning.py:436 | two strings that are each `<=` the other are equal |
| PyBuiltins.InsertBy | roberta_fine-tuning.py:436 | definition: one step of the stable sort, placing an element before the first one whose key is not below its own; its properties are in `InsertByPermutation`, `InsertBySorted` and `InsertByStable` |
| PyBuiltins.SortBy | roberta_fine-tuning.py:436 | definition of `sorted(s, key=...)` as an insertion sort; its properties are in `SortByPermutation`, `SortBySorted` and `SortByStable` |
| PyBuiltins.InsertByPermutation | roberta_fine-tuning.py:436 | inserting into a sorted list adds exactly that element |
| PyBuiltins.SortByPermutation | roberta_fine-tuning.py:436 | `sorted(..., key=...)` is a rearrangement of its input |
| PyBuiltins.InsertBySorted | roberta_fine-tuning.py:436 | inserting into a list sorted by key keeps it sorted |
| PyBuiltins.SortBySorted | roberta_fine-tuning.py:436 | `sorted` orders its result by key |
| PyBuiltins.InsertByStable | roberta_fine-tuning.py:436 | insertion keeps the relative order of elements with equal keys |
| PyBuiltins.SortByStable | roberta_fine-tuning.py:436 | `sorted` is stable: the elements with any one key keep their input order |
| PyBuiltins.SortBySortedInput | roberta_fine-tuning.py:432 | sorting a list that is already sorted changes nothing |
| PyBuiltins.SortedUnique | roberta_fine-tuning.py:432 | two sorted rearrangements of one another are equal |
| PyBuiltins.SortStringsPermutationInvariant | roberta_fine-tuning.py:432 | `sorted` of a list of strings depends only on its elements, not on their order |
| PyBuiltins.StripLeading | roberta_fine-tuning.py:175 | the result is a suffix of the input, everything dropped in front of it is white space, and it does not start with white space |
| PyBuiltins.StripTrailing | roberta_fine-tuning.py:175 | the result is a prefix of the input, everything dropped after it is white space, and it does not end with white space |
| PyBuiltins.Strip | roberta_fine-tuning.py:175 | the stripped text is no longer than the input and neither starts nor ends with white space |
| PyBuiltins.IsSpace | roberta_fine-tuning.py:175 | definition of the white space `int()` skips around a number in an ASCII string: space and the characters tab to carriage return (0x09 to 0x0D), not the separators 0x1C to 0x1F; used by `StripShape` and `ParseIntExactly` |
| PyBuiltins.StripShape | roberta_fine-tuning.py:175 | stripping removes exactly the white space `int()` skips at both ends: `s == a + Strip(s) + b` with `a` and `b` all white space |
| PyBuiltins.StripLeadingSpaces | roberta_fine-tuning.py:175 | white space in front of text that does not start with white space is dropped and nothing else |
| PyBuiltins.StripTrailingSpaces | roberta_fine-tuning.py:175 | white space after text that does not end with white space is dropped and nothing else |
| PyBuiltins.StripAround | roberta_fine-tuning.py:175 | stripping white space around text with no white space at its ends gives that text |
| PyBuiltins.ParseInt | roberta_fine-tuning.py:175 | `int(s)` succeeds only when `s` contains a digit, and it is non-negative when `s` has no minus sign; exactly what it accepts is `ParseIntExactly` |
| PyBuiltins.ParseSignedDigits | roberta_fine-tuning.py:175 | the text left after stripping parses only when it holds a digit, and to a non-negative number when it has no minus sign; exactly what it accepts is `SignedDigitsSound` with `SignedDigitsValue` |
| PyBuiltins.WellFormedDigits | roberta_fine-tuning.py:175 | definition of the digit part `int()` accepts: ASCII digits, first and last a digit, single underscores allowed between digits; used by `ParseSigned` and `ParseIntExactly` |
| PyBuiltins.DigitsValue | roberta_fine-tuning.py:175 | definition of the base-10 value of such digits, underscores skipped; its properties are in `NonNegativeDigits`, `SignedDigitsValue` and `DecimalStringValue` |
| PyBuiltins.IntText | roberta_fine-tuning.py:175 | definition of a literal `int()` reads as `v`: white space, an optional `+` or `-`, well-formed digits, white space, with `v` the signed value of the digits |
| PyBuiltins.ParseIntExactly | roberta_fine-tuning.py:175 | up to the interpreter's `int_max_str_digits` limit, `int(s) == v` exactly when `s` is a literal for `v` (both directions); every other text raises ValueError |
| PyBuiltins.ParseIntSound | roberta_fine-tuning.py:175 | whatever `int()` accepts is white space, an optional sign, well-formed digits and white space, and the result is the signed value of those digits |
| PyBuiltins.ParseIntComplete | roberta_fine-tuning.py:175 | every literal for `v` is accepted by `int()` and gives `v` |
| PyBuiltins.SignedDigitsSound | roberta_fine-tuning.py:175 | text that parses after stripping is an optional sign followed by well-formed digits, and its value is their signed value |
| PyBuiltins.SignedDigitsValue | roberta_fine-tuning.py:175 | an optional sign followed by digits (single underscores allowed between them) parses to the signed value of the digits |
| PyBuiltins.ParseSigned | roberta_fine-tuning.py:175 | `int()` of white space, an optional sign, digits with single underscores between them, and white space is the signed value of the digits |
| PyBuiltins.ParseIntRejectsWord | roberta_fine-tuning.py:175 | `int()` raises ValueError on a word without white space that starts with neither a sign nor a digit |
| PyBuiltins.NonNegativeDigits | roberta_fine-tuning.py:175 | a run of decimal digits denotes a non-negative number |
| PyBuiltins.DigitChar | roberta_fine-tuning.py:263 | a digit value is written as a decimal digit |
| PyBuiltins.DecimalString | roberta_fine-tuning.py:263 | `"{}".format(n)` is a non-empty run of decimal digits |
| PyBuiltins.DecimalStringValue | roberta_fine-tuning.py:263 | the digits written for `n` denote `n` |
| PyBuiltins.StripNoSpace | roberta_fine-tuning.py:175 | stripping text without white space changes nothing |
| PyBuiltins.ParseDecimalString | roberta_fine-tuning.py:175 | `int(str(n)) == n` for every natural `n` |
| ConcatDatasets.TotalLength | roberta_fine-tuning.py:69-70 | definition of `sum(len(dt) for dt in datasets)`; its properties are in `FlattenLength` and `TotalLengthAppend` |
| ConcatDatasets.Offset | roberta_fine-tuning.py:63-68 | definition: where component `k` starts, the lengths that the walk subtracts before it; its properties are in `OffsetStep` and `OffsetMonotone` |
| ConcatDatasets.Flatten | roberta_fine-tuning.py:62-70 | definition: the components end to end; its properties are in `FlattenLength` and `FlattenAt` |
| ConcatDatasets.PyIndex | roberta_fine-tuning.py:66 | definition of Python's `list[i]`, counting a negative `i` from the end; used by `ConcatDataset.GetItem` |
| ConcatDatasets.OffsetStep | roberta_fine-tuning.py:64-68 | component `k + 1` starts `len(datasets[k])` after component `k` |
| ConcatDatasets.OffsetMonotone | roberta_fine-tuning.py:64-68 | later components start no earlier than earlier ones |
| ConcatDatasets.FlattenLength | roberta_fine-tuning.py:69-70 | the combined sequence is as long as the sum of the lengths |
| ConcatDatasets.FlattenAt | roberta_fine-tuning.py:62-68 | position `j` of component `k` is position `offset(k) + j` of the combined sequence |
| ConcatDatasets.ComponentExists | roberta_fine-tuning.py:62-68 | every index below the total length falls inside some component |
| ConcatDatasets.TotalLengthAppend | roberta_fine-tuning.py:69-70 | the total length of two lists of components adds up |
| ConcatDatasets.TwoComponents | roberta_fine-tuning.py:93-94 | with UNQOVER and SQuAD as components, SQuAD starts at `len(unqover)` and the combined set is UNQOVER followed by SQuAD |
| ConcatDatasets.ConcatDataset.constructor | roberta_fine-tuning.py:59-60 | the object holds the given components |
| ConcatDatasets.ConcatDataset.Length | roberta_fine-tuning.py:69-70 | `__len__` is the length of the combined sequence |
| ConcatDatasets.ConcatDataset.GetItem | roberta_fine-tuning.py:62-68 | `__getitem__` at a valid index returns that element of the combined sequence, the element of the component the index falls in; it returns `None` past the end; a negative index is applied to the first component as a Python list index |
| ConcatDatasets.ConcatDataset.Found | roberta_fine-tuning.py:64-66 | the component in which the walk stops is the only one containing the index, and it holds the right element |
| TrainIndices.SequentialIndices | roberta_fine-tuning.py:107-111 | without SQuAD, the full batches plus the remainder give back the shuffled list exactly |
| TrainIndices.FullBatchesFit | roberta_fine-tuning.py:108-111 | `(len // B) * B` positions fit in the list, and fill it when `B` divides its length |
| TrainIndices.MulProduct | roberta_fine-tuning.py:105-106 | the repeated-addition product is the product |
| TrainIndices.MulMonotone | roberta_fine-tuning.py:105-106 | the product grows with its first factor |
| TrainIndices.QuarterDivides | roberta_fine-tuning.py:105-106 | the repeated-subtraction quarter is `x // 4` |
| TrainIndices.QuarterMonotone | roberta_fine-tuning.py:105-106 | `x // 4` grows with `x` |
| TrainIndices.UnqoverCut | roberta_fine-tuning.py:105 | definition of the UNQOVER slice bound `i * B * 3 // 4`; `CutsAreQuarters` proves it is that bound |
| TrainIndices.SquadCut | roberta_fine-tuning.py:106 | definition of the SQuAD slice bound `i * B // 4`; `CutsAreQuarters` proves it is that bound |
| TrainIndices.CutsAreQuarters | roberta_fine-tuning.py:105-106 | the cuts are exactly the script's slice bounds |
| TrainIndices.Group | roberta_fine-tuning.py:105-106 | definition of group `i`: the clamped UNQOVER slice then the clamped SQuAD slice; its properties are in `GroupPosition`, `CutWidths` and `GroupsAreBatches` |
| TrainIndices.Mixed | roberta_fine-tuning.py:104-106 | definition: the first `n` groups one after the other; its properties are in `MixedIndices`, `MixedSources`, `MixedLength` and `MixedNoRepeats` |
| TrainIndices.MixedIndices | roberta_fine-tuning.py:103-106 | with SQuAD, the loop builds `num_train // B` groups, each made of its UNQOVER slice followed by its SQuAD slice |
| TrainIndices.InterleaveConcat | roberta_fine-tuning.py:105-106 | `x + y` is a merge of `x` and `y` |
| TrainIndices.InterleavingAppend | roberta_fine-tuning.py:104-106 | appending two merges gives a merge of the appended sources |
| TrainIndices.InterleavingMultiset | roberta_fine-tuning.py:104-106 | a merge holds exactly the elements of its two sources |
| TrainIndices.CutsMonotone | roberta_fine-tuning.py:105-106 | each group's cuts are no smaller than the previous group's |
| TrainIndices.MixedSources | roberta_fine-tuning.py:104-106 | the mixed list is a merge of a prefix of the UNQOVER list and a prefix of the SQuAD list, each used in its own order |
| TrainIndices.MixedStep | roberta_fine-tuning.py:105-106 | group `i` extends the list by its UNQOVER slice and then its SQuAD slice |
| TrainIndices.MixedLength | roberta_fine-tuning.py:104-106 | the mixed list uses exactly the positions of the two clamped prefixes, and is no longer than both lists together |
| TrainIndices.MixedNoRepeats | roberta_fine-tuning.py:94-106 | when the UNQOVER and SQuAD positions are distinct, no position appears twice in the mixed list |
| TrainIndices.CutsExact | roberta_fine-tuning.py:105-106 | when 4 divides `B`, the cuts are exact multiples of `B/4` |
| TrainIndices.MixedPrefix | roberta_fine-tuning.py:104-106 | the list built by fewer rounds is a prefix of the list built by more |
| TrainIndices.MixedExactLength | roberta_fine-tuning.py:104-106 | when 4 divides `B` and both lists are long enough, `n` groups hold exactly `n*B` positions |
| TrainIndices.CutWidths | roberta_fine-tuning.py:105-106 | when 4 divides `B`, each group takes `B/4*3` UNQOVER and `B/4` SQuAD positions |
| TrainIndices.CutsMonotoneRange | roberta_fine-tuning.py:105-106 | the cuts of a later group are no smaller |
| TrainIndices.GroupsAreBatches | roberta_fine-tuning.py:104-118 | when 4 divides `B`, batch `i` of the sampler is exactly group `i`: `3B/4` UNQOVER positions followed by `B/4` SQuAD positions |
| TrainIndices.GroupPosition | roberta_fine-tuning.py:104-116 | group `i` sits at positions `i*B .. i*B + B` of the list |
| TrainIndices.FirstGroupShort | roberta_fine-tuning.py:105-106 | when 4 does not divide `B`, the first group holds `B - 1` positions, so the sampler's batches no longer line up with the groups |
| TrainIndices.ShareLoss | roberta_fine-tuning.py:105-106 | `B*3//4 + B//4 == B - 1` unless 4 divides `B` |
| SquadSubset.SquadCount | roberta_fine-tuning.py:86 | the SQuAD pool is `min(num_train // 4 * 7, 100000)`: at most each of the two, and equal to one of them |
| SquadSubset.SampleFits | roberta_fine-tuning.py:86-88 | sampling `num_train // 4` positions from the pool fits exactly when `num_train // 4 <= 100000` |
| SquadSubset.ProjectColumn | roberta_fine-tuning.py:91 | `[column[x] for x in indices]` succeeds exactly when every index is in range, and then holds `column[indices[j]]` at position `j` |
| SquadSubset.Range | roberta_fine-tuning.py:88 | `range(n)` holds `0 .. n-1` in order |
| SquadSubset.ProjectRange | roberta_fine-tuning.py:91 | projecting a column on all of its positions gives it back |
| SquadSubset.ProjectCompose | roberta_fine-tuning.py:91 | projecting twice is projecting once on the composed positions |
| SquadSubset.ProjectEncoding | roberta_fine-tuning.py:196-199 | every column of the encoding is projected on the same sample; the result has the same keys and fails exactly when some column is too short |
| Resume.CheckpointSuffix | roberta_fine-tuning.py:174 | the suffix is the text after the last `-` of the path (from its start when there is none) up to the next `/` or the end, and holds neither `-` nor `/` |
| Resume.SplitLast | roberta_fine-tuning.py:174 | the last field of `split(sep)` is the text after the last separator, or all of the text without one |
| Resume.SplitFirst | roberta_fine-tuning.py:174 | the first field of `split(sep)` runs up to the first separator or the end |
| Resume.FreshStart | roberta_fine-tuning.py:167-169 | definition of the counters before any resume: `global_step = 1`, `epochs_trained = 0`, `steps_trained_in_current_epoch = 0`; `ResumeFrom` returns them whenever it does not resume |
| Resume.StepsPerEpoch | roberta_fine-tuning.py:176-177 | definition of `len(train_dataloader) // gradient_accumulation_steps`; its use is in `ResumeFrom` |
| Resume.StateAt | roberta_fine-tuning.py:176-177 | epochs and steps recombine to the global step (`epochs*s + steps == g`), with `0 <= steps < s` and non-negative epochs for a positive `s` and `g` |
| Resume.ResumeFrom | roberta_fine-tuning.py:167-184 | a fresh start when the path does not exist or `int()` raises ValueError; ZeroDivisionError exactly when it parses and an epoch holds fewer batches than one accumulation round; otherwise the parsed global step, split into epochs and steps |
| Resume.JoinPath | roberta_fine-tuning.py:263 | definition of POSIX `os.path.join(a, b)`; its property is in `CheckpointDir` |
| Resume.CheckpointDir | roberta_fine-tuning.py:263 | a saved checkpoint's directory name ends in `-` followed by the decimal global step |
| Resume.SuffixAfterLastDash | roberta_fine-tuning.py:174 | the text after the last `-`, with or without a trailing `/`, is what the suffix reads |
| Resume.ResumeFromSavedCheckpoint | roberta_fine-tuning.py:167-177 | resuming from a directory saved at step `g` restores `g`, `g // s` epochs and `g % s` steps |
| Resume.ResumeFromDigits | roberta_fine-tuning.py:175-177 | a suffix that is the decimal form of `g` resumes at `g`, `g // s` epochs and `g % s` steps |
| Resume.PretrainedNameStartsFresh | roberta_fine-tuning.py:171-184 | a model name such as `roberta-base` that exists on disk still starts from scratch |
| TrainingLoop.HasRelevant | roberta_fine-tuning.py:223-225 | definition: some example of the batch is not marked `-2`, so `torch.where` finds it; the batch is skipped otherwise |
| TrainingLoop.EpochRun | roberta_fine-tuning.py:204-279 | definition: `Advance` over the batches of one epoch in order; its properties are in `EpochSteps`, `EpochMonotone`, `EpochKeepsBelowMax` and `Trainer.RunEpoch` |
| TrainingLoop.EndEpoch | roberta_fine-tuning.py:280-282 | definition of the check after each epoch that stops the run once `global_step > max_steps > 0` |
| TrainingLoop.TrainRun | roberta_fine-tuning.py:194-282 | definition: one `EpochRun` and one `EndEpoch` per epoch; its properties are in `TrainStopsJustPastMax` and `Trainer.Train` |
| TrainingLoop.Advance | roberta_fine-tuning.py:205-282 | one batch raises the global step by at most one; it does so exactly when nothing is left to skip, the batch has a relevant example and `(step + 1) % gas == 0`; the skip counts down first; a stopped run is left alone; a running run stops exactly when the batch is counted (nothing left to skip, a relevant example), `max_steps > 0` and the new global step exceeds `max_steps` |
| TrainingLoop.DivStep | roberta_fine-tuning.py:243 | `n // a` grows by one exactly at the multiples of `a` |
| TrainingLoop.EpochSteps | roberta_fine-tuning.py:205-249 | an epoch of relevant batches with `k` batches to skip takes `n // a - k // a` optimizer steps and uses up the skip |
| TrainingLoop.FullEpochSteps | roberta_fine-tuning.py:205-249 | a fresh epoch of `n` relevant batches takes `n // a` optimizer steps |
| TrainingLoop.ResumedEpochSteps | roberta_fine-tuning.py:176-177 | after resuming at `g`, the skip counts `g % s` batches although it was computed in optimizer steps; the resumed epoch ends at `g + s - (g % s) // a`, which is the start of the next epoch (`g - g % s + s`) exactly when `a == 1` or `g % s == 0` |
| TrainingLoop.EpochMonotone | roberta_fine-tuning.py:205-249 | over an epoch the global step never decreases and grows at most once per batch; a stopped run is untouched |
| TrainingLoop.EpochKeepsBelowMax | roberta_fine-tuning.py:277-279 | for a run that starts at or below `max_steps`, with `max_steps > 0`, an epoch never takes the global step past `max_steps + 1`, and it stops exactly at `max_steps + 1` |
| TrainingLoop.TrainStopsJustPastMax | roberta_fine-tuning.py:277-282 | for a run that starts at or below `max_steps`, with `max_steps > 0`, over any number of epochs the run never passes `max_steps + 1`, and it stops exactly at `max_steps + 1` |
| TrainingLoop.Trainer.constructor | roberta_fine-tuning.py:167-169 | the loop starts from the resumed global step with the resumed steps to skip |
| TrainingLoop.Trainer.OnBatch | roberta_fine-tuning.py:205-279 | one pass of the inner loop body updates the counters as `Advance` says |
| TrainingLoop.Trainer.RunEpoch | roberta_fine-tuning.py:204-279 | the inner loop, left early by the `max_steps` break, ends with the counters of `EpochRun` |
| TrainingLoop.Trainer.StoppedRest | roberta_fine-tuning.py:277-279 | once stopped, the rest of an epoch changes nothing |
| TrainingLoop.Trainer.Train | roberta_fine-tuning.py:194-282 | the epoch loop, with the outer `max_steps` break, ends with the counters of `TrainRun` |
| TrainingLoop.Trainer.StoppedEpochs | roberta_fine-tuning.py:280-282 | once stopped, the remaining epochs change nothing |
| EvalOutput.EvalKey | roberta_fine-tuning.py:380 | definition of `'None|None|' + batch_keys[k]`; its properties are in `EvalKeyFields` and `NormalizeEvalKey` |
| EvalOutput.NormalizeKey | roberta_fine-tuning.py:431-434 | definition of the sort key; its properties are in `NormalizeKeyFields`, `NormalizeKeyIdempotent`, `NormalizeKeyOrderInsensitive` and `NormalizeEvalKey` |
| EvalOutput.EvalKeyFields | roberta_fine-tuning.py:380 | an evaluation key splits into `None`, `None` and the loader's fields, so it has at least three fields |
| EvalOutput.NormalizeKeyFields | roberta_fine-tuning.py:431-434 | the normalised key's fields are the first three fields sorted, then the rest unchanged |
| EvalOutput.NormalizeKeyIdempotent | roberta_fine-tuning.py:431-434 | normalising twice is normalising once |
| EvalOutput.NormalizeEvalKey | roberta_fine-tuning.py:431-434 | an evaluation key (line 380) normalises to `None`, `None` and the loader key's first field sorted, followed by the loader key's other fields |
| EvalOutput.NormalizeKeyOrderInsensitive | roberta_fine-tuning.py:431-434 | keys that differ only in the order of their first three fields normalise to the same key |
| EvalOutput.AddRecord | roberta_fine-tuning.py:388-389 | definition of filing one record: create the key's list if it is new, then append (line 413); its properties are in `AddRecordWellFormed` and `ResultGroups.Add` |
| EvalOutput.AddAll | roberta_fine-tuning.py:379-413 | definition: `AddRecord` for each record in order; its properties are in `AddAllWellFormed`, `AddAllContents` and `AddAllOrder` |
| EvalOutput.AddRecordWellFormed | roberta_fine-tuning.py:388-389 | filing one record keeps each key listed exactly once |
| EvalOutput.AddAllWellFormed | roberta_fine-tuning.py:379-413 | filing a batch of records keeps each key listed exactly once |
| EvalOutput.AddAllContents | roberta_fine-tuning.py:379-413 | a key is present afterwards exactly when it was before or came up; its list is the old list followed by the new records under it, in order |
| EvalOutput.NoRecordsForAbsent | roberta_fine-tuning.py:388-413 | a key that never comes up gets no records |
| EvalOutput.AddAllOrder | roberta_fine-tuning.py:388-389 | the keys are the old keys followed by the new ones in order of first appearance |
| EvalOutput.KeysOf | roberta_fine-tuning.py:437 | the key list holds each entry's key, position by position |
| EvalOutput.InsertTagged | roberta_fine-tuning.py:436 | inserting an entry by its normalised key matches inserting its key by the normalised key |
| EvalOutput.SortTagged | roberta_fine-tuning.py:436-437 | sorting the entries and reading off the keys is sorting the keys by their normalised form |
| EvalOutput.ReorderedKeys | roberta_fine-tuning.py:429-437 | the new key order is sorted by normalised key, is a rearrangement of the old keys, keeps first-seen order among keys with the same normalised form, and lists no key twice |
| EvalOutput.ResultGroups.constructor | roberta_fine-tuning.py:379-389 | `rs_map` starts empty |
| EvalOutput.ResultGroups.Add | roberta_fine-tuning.py:388-413 | filing one record creates the key's list if it is new and appends, keeping `rs_map` a dict |
| EvalOutput.ResultGroups.AddBatch | roberta_fine-tuning.py:379-413 | filing a batch gives the state of `AddAll` on the prefixed keys |
| EvalOutput.ResultGroups.Reorder | roberta_fine-tuning.py:429-437 | reordering keeps every key's list unchanged and orders the keys by the stable sort on their normalised form |
| EvalOutput.ListEntries | roberta_fine-tuning.py:429-435 | the entries list every key once, in dict order, each with its normalised key and its own list |
| EvalOutput.RebuildDict | roberta_fine-tuning.py:437 | the rebuilt dict holds each entry's list under its key, with keys in the entries' order |
| EvalOutput.SortedEntries | roberta_fine-tuning.py:436 | after sorting, the entries' keys are the keys sorted by normalised form, and each entry still carries its key's list |
| EvalOutput.Rebuilt | roberta_fine-tuning.py:437 | the rebuilt dict equals the old one and lists each key once |
| EvalOutput.EvalKeys | roberta_fine-tuning.py:380 | the batch's keys, each prefixed with `None|None|` |

## Left out

- The model, the optimizer, the scheduler, the loss and all tensor
  arithmetic. Forward and backward passes and gradient clipping are
  numerics that this model does not reason about. A batch is reduced to
  its `interventions` column.
- The helper modules the script imports: data loading and `SquadFormat`,
  `cleanup_G`, `improve_prediction` and the output helpers. Their code is
  not part of this model. Loaded datasets are sequences of opaque examples,
  and a prediction record (`tmp`) is an opaque value.
- Randomness (`random.shuffle`, `random.sample`, `set_seed`). The shuffled
  lists and the sample are inputs.
- Files, argument parsing, logging, TensorBoard, GPU placement and
  `torch.save`. `os.path.exists` is a boolean input to `Resume.ResumeFrom`.
- The search for saved checkpoints in the evaluation entry point, and the
  float bookkeeping of `t_total`, `num_train_epochs`, `tr_loss` and
  `logging_loss`.
- Logging and checkpoint saving at `logging_steps` and `save_steps`. Only
  the directory name of a saved checkpoint is modelled, by
  `Resume.CheckpointDir`.
- The evaluation batch loop, the `cur_cnt` count and its final assert. Only
  the filing of one batch's records (`AddBatch`) and the final reordering
  are modelled. The `'irrelevant' in keys` test does nothing and is not
  modelled.
- Resume.ResumeFrom: requires `gradient_accumulation_steps != 0`. With 0 the
  script raises ZeroDivisionError earlier, when it computes `t_total`
  (lines 120-124), so the resume is never reached.
- TrainIndices.SequentialIndices: requires `B > 0`. With `B == 0`, line 108
  raises ZeroDivisionError before any index is built.
- TrainIndices.MixedIndices: requires `B > 0` for the same reason (line 104).
- TrainIndices.MixedIndices: `i * B` is computed by `Mul`, which stands for
  Python's `*` on naturals (`MulProduct` proves them equal). The UNQOVER and
  SQuAD cuts are stated with `Quarter`, which stands for `// 4`
  (`QuarterDivides` proves them equal).
- SquadSubset.ProjectEncoding: visits the keys in an arbitrary order rather
  than the dict's insertion order. The result is a map, so the order does
  not affect it.
- PyBuiltins.ParseInt: models `int()` on ASCII text: white space (space and
  tab to carriage return, but not the separators 0x1C to 0x1F, which
  `int()` rejects in an ASCII string), an optional sign, ASCII decimal digits
  with single underscores between them, and white space. On text holding
  non-ASCII characters Python first converts Unicode digits and white space;
  that conversion is not modelled.
- PyBuiltins.ParseInt: the limit on the number of digits that recent Python
  versions put on `int()` of a decimal string (`int_max_str_digits`,
  4300 by default, since 3.11 and the 2022 security releases of 3.7 to
  3.10) is not modelled. Such a literal parses here, while the interpreter
  raises ValueError, so `Resume.ResumeFrom` would resume where the script
  starts fresh. The limit depends on the interpreter version and settings.
- PyBuiltins.Strip: its own contract gives only the ends of the result.
  That the result is the input without exactly its leading and trailing
  white space is the lemma `StripShape`, kept apart so that callers of
  `Strip` stay cheap to verify.
- Resume.JoinPath: POSIX paths only. The script builds its data path with a
  Windows `\` separator at line 78; that path is an input here, and
  `JoinPath` and `CheckpointSuffix` treat only `/` as a separator.
- TrainingLoop.Trainer: the loop over epochs is given its epochs as an
  input. The resumed `epochs_trained` and the range
  `trange(epochs_trained, num_train_epochs)` of lines 188-190 are not
  modelled, so which epochs run after a resume is not derived from the
  resumed counters.
- PyBuiltins.LexLeq: compares strings by character code, as Python does.
  Locale-aware collation is not involved in the script.
- TrainingLoop.Trainer.RunEpoch: does not model the per-epoch rebuilding of
  the data loader (lines 195-202). The batches of each epoch are an input,
  and the SQuAD projection itself is `SquadSubset.ProjectEncoding`.

=== FILE: concat_dataset.dfy ===
/** `ConcatDataset` (roberta_fine-tuning.py:57-70): several datasets laid end
    to end behind one index space. Each component is modelled as the sequence
    of its examples. */
module ConcatDatasets {

  /** What `__getitem__` produces: an example, Python's `None` when the index
      runs past every component, or the IndexError raised by indexing the
      first component with a negative index that is too small. */
  datatype Lookup<T> = Item(value: T) | NoItem | IndexError

  /** `sum(len(dt) for dt in ds)`, added up left to right. */
  function TotalLength<T>(ds: seq<seq<T>>): nat
  {
    if ds == [] then 0 else TotalLength(ds[..|ds| - 1]) + |ds[|ds| - 1]|
  }

  /** The position in the combined index space where component `k` starts. */
  function Offset<T>(ds: seq<seq<T>>, k: nat): nat
    requires k <= |ds|
  {
    TotalLength(ds[..k])
  }

  /** The components one after the other, as a single sequence. */
  function Flatten<T>(ds: seq<seq<T>>): seq<T>
  {
    if ds == [] then [] else Flatten(ds[..|ds| - 1]) + ds[|ds| - 1]
  }

  /** Python's `s[i]` on a list: a negative `i` counts from the end. */
  function PyIndex<T>(s: seq<T>, i: int): Lookup<T>
  {
    if 0 <= i < |s| then Item(s[i])
    else if -|s| <= i < 0 then Item(s[|s| + i])
    else IndexError
  }

  lemma OffsetStep<T>(ds: seq<seq<T>>, k: nat)
    requires k < |ds|
    ensures Offset(ds, k + 1) == Offset(ds, k) + |ds[k]|
  {
    assert ds[..k + 1][..k] == ds[..k];
  }

  /** Components start no earlier than the ones before them. */
  lemma {:induction false} OffsetMonotone<T>(ds: seq<seq<T>>, j: nat, k: nat)
    requires j <= k <= |ds|
    ensures Offset(ds, j) <= Offset(ds, k)
    decreases k - j
  {
    if j < k {
      OffsetStep(ds, j);
      OffsetMonotone(ds, j + 1, k);
    }
  }

  /** The combined sequence is as long as `__len__` says. */
  lemma {:induction false} FlattenLength<T>(ds: seq<seq<T>>)
    ensures |Flatten(ds)| == TotalLength(ds)
  {
    if ds != [] { FlattenLength(ds[..|ds| - 1]); }
  }

  /** Position `j` of component `k` is position `Offset(ds, k) + j` of the
      combined sequence. */
  lemma {:induction false} FlattenAt<T>(ds: seq<seq<T>>, k: nat, j: nat)
    requires k < |ds| && j < |ds[k]|
    ensures Offset(ds, k) + j < |Flatten(ds)|
    ensures Flatten(ds)[Offset(ds, k) + j] == ds[k][j]
  {
    var init := ds[..|ds| - 1];
    FlattenLength(init);
    FlattenLength(ds);
    if k == |ds| - 1 {
      assert ds[..k] == init;
    } else {
      assert init[..k] == ds[..k];
      FlattenAt(init, k, j);
    }
  }

  /** Every index below the total length lies inside some component. */
  lemma {:induction false} ComponentExists<T>(ds: seq<seq<T>>, index: int)
    requires 0 <= index < TotalLength(ds)
    ensures exists k :: 0 <= k < |ds| && Offset(ds, k) <= index < Offset(ds, k) + |ds[k]|
  {
    var init := ds[..|ds| - 1];
    if index < TotalLength(init) {
      ComponentExists(init, index);
      var k :| 0 <= k < |init| && Offset(init, k) <= index < Offset(init, k) + |init[k]|;
      assert init[..k] == ds[..k];
      assert 0 <= k < |ds| && Offset(ds, k) <= index < Offset(ds, k) + |ds[k]|;
    } else {
      var k := |ds| - 1;
      assert ds[..k] == init;
      assert 0 <= k < |ds| && Offset(ds, k) <= index < Offset(ds, k) + |ds[k]|;
    }
  }

  /** The length of a concatenation of lists of datasets is additive. */
  lemma {:induction false} TotalLengthAppend<T>(a: seq<seq<T>>, b: seq<seq<T>>)
    ensures TotalLength(a + b) == TotalLength(a) + TotalLength(b)
    decreases |b|
  {
    if b != [] {
      var b' := b[..|b| - 1];
      TotalLengthAppend(a, b');
      assert (a + b)[..|a + b| - 1] == a + b';
      assert (a + b)[|a + b| - 1] == b[|b| - 1];
      assert TotalLength(b) == TotalLength(b') + |b[|b| - 1]|;
    } else {
      assert a + b == a;
    }
  }

  /** With the UNQOVER and SQuAD sets as the two components, the indices
      `len(unqover) .. len(unqover) + len(squad) - 1` (the script's `idx1`)
      reach exactly the SQuAD examples, in order. */
  lemma TwoComponents<T>(unqover: seq<T>, squad: seq<T>)
    ensures TotalLength([unqover, squad]) == |unqover| + |squad|
    ensures Offset([unqover, squad], 1) == |unqover|
    ensures Flatten([unqover, squad]) == unqover + squad
  {
    assert [unqover, squad][..1] == [unqover];
    assert [unqover][..0] == [];
    assert Flatten([unqover]) == unqover;
    assert TotalLength([unqover]) == |unqover|;
  }

  class ConcatDataset<T> {
    const datasets: seq<seq<T>>

    constructor (datasets: seq<seq<T>>)
      ensures this.datasets == datasets
    {
      this.datasets := datasets;
    }

    /** `__len__`: the number of examples in the combined sequence. */
    function Length(): (n: nat)
      ensures n == |Flatten(datasets)|
    {
      FlattenLength(datasets);
      TotalLength(datasets)
    }

    /** `__getitem__`: walks the components, taking each one's length off the
        index, until the index falls inside one. */
    method GetItem(index: int) returns (r: Lookup<T>)
      ensures 0 <= index < Length() ==> r == Item(Flatten(datasets)[index])
      ensures forall k :: 0 <= k < |datasets| && Offset(datasets, k) <= index < Offset(datasets, k) + |datasets[k]| ==>
                r == Item(datasets[k][index - Offset(datasets, k)])
      ensures index >= Length() ==> r == NoItem
      ensures index < 0 ==> r == if datasets == [] then NoItem else PyIndex(datasets[0], index)
    {
      var lens := seq(|datasets|, j requires 0 <= j < |datasets| => |datasets[j]|);
      var i := 0;
      var rest := index;
      while i < |lens|
        invariant 0 <= i <= |lens|
        invariant rest == index - Offset(datasets, i)
        invariant i > 0 ==> rest >= 0
      {
        if rest < lens[i] {
          r := PyIndex(datasets[i], rest);
          Found(index, i);
          return;
        }
        OffsetStep(datasets, i);
        rest := rest - lens[i];
        i := i + 1;
      }
      assert datasets[..|datasets|] == datasets;
      FlattenLength(datasets);
      forall k | 0 <= k < |datasets| ensures Offset(datasets, k) + |datasets[k]| <= Length() {
        OffsetStep(datasets, k);
        OffsetMonotone(datasets, k + 1, |datasets|);
      }
      r := NoItem;
    }

    /** The facts `GetItem` needs when the index lands in component `i`. */
    lemma Found(index: int, i: nat)
      requires i < |datasets| && index < Offset(datasets, i) + |datasets[i]|
      requires i > 0 ==> index >= Offset(datasets, i)
      ensures 0 <= index ==> index < Length() && Flatten(datasets)[index] == datasets[i][index - Offset(datasets, i)]
      ensures forall k :: 0 <= k < |datasets| && Offset(datasets, k) <= index < Offset(datasets, k) + |datasets[k]| ==> k == i
    {
      OffsetStep(datasets, i);
      OffsetMonotone(datasets, i + 1, |datasets|);
      assert datasets[..|datasets|] == datasets;
      assert i == 0 ==> Offset(datasets, 0) == 0 by { assert datasets[..0] == []; }
      if 0 <= index {
        FlattenAt(datasets, i, index - Offset(datasets, i));
      }
      forall k | 0 <= k < |datasets| && Offset(datasets, k) <= index < Offset(datasets, k) + |datasets[k]|
        ensures k == i
      {
        OffsetStep(datasets, k);
        if k < i {
          OffsetMonotone(datasets, k + 1, i);
        } else if k > i {
          OffsetMonotone(datasets, i + 1, k);
        }
      }
    }
  }
}

=== FILE: eval_output.dfy ===
/** How `evaluate` files its per-example results (roberta_fine-tuning.py:
    379-389, 413 and 429-437): every record goes into the list of its key in
    `rs_map`, a dict that remembers the order in which keys first appeared;
    at the end the keys are put in order of a normalised form in which the
    first three `|`-separated fields are sorted. A record (the `tmp` dict of
    line 390) is opaque here. */
module EvalOutput {
  import opened PyBuiltins

  /** `'None|None|' + batch_keys[k]` (line 380). */
  function EvalKey(batchKey: string): string
  {
    "None|None|" + batchKey
  }

  /** The key handed down by the data loader becomes the fields after two
      `None` fields, so an evaluation key always has at least three fields. */
  lemma EvalKeyFields(batchKey: string)
    ensures Split(EvalKey(batchKey), '|') == ["None", "None"] + Split(batchKey, '|')
    ensures |Split(EvalKey(batchKey), '|')| >= 3
  {
    var inner := "None" + ['|'] + batchKey;
    assert EvalKey(batchKey) == "None" + ['|'] + inner;
    assert Split("None", '|') == ["None"] by {
      SplitWithoutSeparator("None", '|');
    }
    assert Split(inner, '|') == ["None"] + Split(batchKey, '|') by {
      SplitAround("None", '|', batchKey);
    }
    SplitAround("None", '|', inner);
  }

  // ---------------------------------------------------------------------------
  // The normalised key (lines 430-433)

  /** `'|'.join(sorted(toks[0:3]) + toks[3:])` with `toks = key.split('|')`. */
  function NormalizeKey(key: string): string
  {
    var fields := Split(key, '|');
    Join(SortBy(Slice(fields, 0, 3), Identity) + Slice(fields, 3, |fields|), '|')
  }

  /** The fields of a normalised key: the first (up to) three fields of the
      key, sorted, then the remaining fields unchanged. */
  lemma NormalizeKeyFields(key: string)
    ensures var fields := Split(key, '|');
            var head := fields[..Min(3, |fields|)];
            Split(NormalizeKey(key), '|') == SortBy(head, Identity) + fields[Min(3, |fields|)..]
  {
    var fields := Split(key, '|');
    var n := Min(3, |fields|);
    assert Slice(fields, 0, 3) == fields[..n];
    assert Slice(fields, 3, |fields|) == fields[n..];
    var sorted := SortBy(fields[..n], Identity);
    SortByPermutation(fields[..n], Identity);
    var normal := sorted + fields[n..];
    forall f | f in normal ensures '|' !in f {
      if f in sorted {
        assert f in multiset(fields[..n]);
      }
    }
    assert |sorted| == n by {
      assert |multiset(sorted)| == |multiset(fields[..n])|;
    }
    SplitJoin(normal, '|');
  }

  /** Normalising twice is normalising once. */
  lemma NormalizeKeyIdempotent(key: string)
    ensures NormalizeKey(NormalizeKey(key)) == NormalizeKey(key)
  {
    var fields := Split(key, '|');
    var n := Min(3, |fields|);
    var sorted := SortBy(fields[..n], Identity);
    var normal := sorted + fields[n..];
    NormalizeKeyFields(key);
    assert |sorted| == n by {
      SortByPermutation(fields[..n], Identity);
      assert |multiset(sorted)| == |multiset(fields[..n])|;
    }
    assert SortBy(sorted, Identity) == sorted by {
      SortBySorted(fields[..n], Identity);
      SortBySortedInput(sorted, Identity);
    }
    NormalizeFromFields(NormalizeKey(key), normal);
    assert Slice(normal, 0, 3) == sorted;
    assert Slice(normal, 3, |normal|) == fields[n..];
    NormalizeFromFields(key, fields);
    assert Slice(fields, 0, 3) == fields[..n];
    assert Slice(fields, 3, |fields|) == fields[n..];
  }

  lemma NormalizeFromFields(key: string, fields: seq<string>)
    requires Split(key, '|') == fields
    ensures NormalizeKey(key) == Join(SortBy(Slice(fields, 0, 3), Identity) + Slice(fields, 3, |fields|), '|')
  {
  }

  /** Keys that differ only in the order of their first three fields have
      the same normalised key. */
  lemma NormalizeKeyOrderInsensitive(a: seq<string>, b: seq<string>)
    requires |a| >= 3 && |b| >= 3
    requires forall f :: f in a ==> '|' !in f
    requires forall f :: f in b ==> '|' !in f
    requires multiset(a[..3]) == multiset(b[..3]) && a[3..] == b[3..]
    ensures NormalizeKey(Join(a, '|')) == NormalizeKey(Join(b, '|'))
  {
    SplitJoin(a, '|');
    SplitJoin(b, '|');
    assert Slice(a, 0, 3) == a[..3] && Slice(b, 0, 3) == b[..3];
    assert Slice(a, 3, |a|) == a[3..] && Slice(b, 3, |b|) == b[3..];
    SortStringsPermutationInvariant(a[..3], b[..3]);
  }

  /** On the keys `evaluate` builds, `None|None|` followed by the loader's
      key, the first three fields are `None`, `None` and the loader key's
      first field: normalising only places that field among the two `None`s,
      and leaves the loader key's other fields as they are. */
  lemma NormalizeEvalKey(batchKey: string)
    ensures var f := Split(batchKey, '|');
            Split(NormalizeKey(EvalKey(batchKey)), '|') == SortBy(["None", "None", f[0]], Identity) + f[1..]
  {
    var f := Split(batchKey, '|');
    EvalKeyFields(batchKey);
    NormalizeKeyFields(EvalKey(batchKey));
    var fields := ["None", "None"] + f;
    assert fields[..3] == ["None", "None", f[0]];
    assert fields[3..] == f[1..];
  }

  // ---------------------------------------------------------------------------
  // rs_map as a value: its keys in insertion order and its lists

  datatype Grouping<V> = Grouping(order: seq<string>, groups: map<string, seq<V>>)

  /** A dict: the recorded order lists each key exactly once. */
  predicate WellFormed<V>(g: Grouping<V>)
  {
    (forall k | k in g.groups :: k in g.order) && (forall k | k in g.order :: k in g.groups) && NoRepeats(g.order)
  }

  /** Lines 388-389 and 413: create the key's list if it is new, then append. */
  function AddRecord<V>(g: Grouping<V>, key: string, record: V): Grouping<V>
  {
    if key in g.groups then Grouping(g.order, g.groups[key := g.groups[key] + [record]])
    else Grouping(g.order + [key], g.groups[key := [record]])
  }

  /** The records filed under `keys[i]`, one after the other. */
  function AddAll<V>(g: Grouping<V>, keys: seq<string>, records: seq<V>): Grouping<V>
    requires |keys| == |records|
  {
    if keys == [] then g
    else AddRecord(AddAll(g, keys[..|keys| - 1], records[..|records| - 1]), keys[|keys| - 1], records[|records| - 1])
  }

  /** Filing the first `k + 1` records is filing the first `k`, then one more. */
  lemma AddAllStep<V>(g: Grouping<V>, keys: seq<string>, records: seq<V>, k: nat)
    requires |keys| == |records| && k < |keys|
    ensures AddAll(g, keys[..k + 1], records[..k + 1]) == AddRecord(AddAll(g, keys[..k], records[..k]), keys[k], records[k])
  {
    assert keys[..k + 1][..k] == keys[..k];
    assert records[..k + 1][..k] == records[..k];
  }

  /** The records whose key is `k`, in order. */
  function RecordsFor<V>(keys: seq<string>, records: seq<V>, k: string): seq<V>
    requires |keys| == |records|
  {
    if keys == [] then []
    else RecordsFor(keys[..|keys| - 1], records[..|records| - 1], k) +
         (if keys[|keys| - 1] == k then [records[|records| - 1]] else [])
  }

  /** The keys of `keys` not in `seen`, each once, in order of first appearance. */
  function FirstSeen(seen: seq<string>, keys: seq<string>): seq<string>
  {
    if keys == [] then []
    else
      var before := FirstSeen(seen, keys[..|keys| - 1]);
      var k := keys[|keys| - 1];
      if k in seen || k in before then before else before + [k]
  }

  lemma AddRecordWellFormed<V>(g: Grouping<V>, key: string, record: V)
    requires WellFormed(g)
    ensures WellFormed(AddRecord(g, key, record))
  {
    if key !in g.groups {
      var order := g.order + [key];
      forall x | x in order ensures multiset(order)[x] == 1 {
        if x != key {
          assert x in g.order;
        }
      }
    }
  }

  /** Filing records keeps `rs_map` a dict. */
  lemma {:induction false} AddAllWellFormed<V>(g: Grouping<V>, keys: seq<string>, records: seq<V>)
    requires WellFormed(g) && |keys| == |records|
    ensures WellFormed(AddAll(g, keys, records))
  {
    if keys != [] {
      AddAllWellFormed(g, keys[..|keys| - 1], records[..|records| - 1]);
      AddRecordWellFormed(AddAll(g, keys[..|keys| - 1], records[..|records| - 1]), keys[|keys| - 1], records[|records| - 1]);
    }
  }

  /** After filing, key `k` is present exactly when it was before or came
      up, and its list is the old list followed by the new records filed
      under `k`, in the order they came. */
  lemma {:induction false} AddAllContents<V>(g: Grouping<V>, keys: seq<string>, records: seq<V>, k: string)
    requires |keys| == |records|
    ensures k in AddAll(g, keys, records).groups <==> k in g.groups || k in keys
    ensures k in AddAll(g, keys, records).groups ==>
              AddAll(g, keys, records).groups[k] ==
              (if k in g.groups then g.groups[k] else []) + RecordsFor(keys, records, k)
  {
    if keys != [] {
      var n := |keys|;
      AddAllContents(g, keys[..n - 1], records[..n - 1], k);
      assert k in keys <==> k in keys[..n - 1] || k == keys[n - 1] by {
        assert keys == keys[..n - 1] + [keys[n - 1]];
      }
      var prev := AddAll(g, keys[..n - 1], records[..n - 1]);
      if k == keys[n - 1] && k !in prev.groups {
        assert RecordsFor(keys[..n - 1], records[..n - 1], k) == [] by {
          NoRecordsForAbsent(keys[..n - 1], records[..n - 1], k);
        }
      }
    }
  }

  lemma {:induction false} NoRecordsForAbsent<V>(keys: seq<string>, records: seq<V>, k: string)
    requires |keys| == |records| && k !in keys
    ensures RecordsFor(keys, records, k) == []
  {
    if keys != [] {
      assert k !in keys[..|keys| - 1] by {
        assert forall x :: x in keys[..|keys| - 1] ==> x in keys;
      }
      NoRecordsForAbsent(keys[..|keys| - 1], records[..|records| - 1], k);
    }
  }

  /** The dict's keys are the old keys followed by the new ones in order of
      first appearance, which is the order `json.dump` would write them in
      without the final reordering. */
  lemma {:induction false} AddAllOrder<V>(g: Grouping<V>, keys: seq<string>, records: seq<V>)
    requires WellFormed(g) && |keys| == |records|
    ensures AddAll(g, keys, records).order == g.order + FirstSeen(g.order, keys)
  {
    if keys != [] {
      var n := |keys|;
      AddAllOrder(g, keys[..n - 1], records[..n - 1]);
      AddAllWellFormed(g, keys[..n - 1], records[..n - 1]);
      var prev := AddAll(g, keys[..n - 1], records[..n - 1]);
      var k := keys[n - 1];
      assert k in prev.groups <==> k in g.order || k in FirstSeen(g.order, keys[..n - 1]);
    }
  }

  // ---------------------------------------------------------------------------
  // The reordering (lines 429-437)

  /** An element of `ls`: `(sort_keys, keys, ex)`. */
  datatype Entry<V> = Entry(sortKey: string, key: string, records: seq<V>)

  function SortKeyOf<V>(e: Entry<V>): string { e.sortKey }

  /** `[keys for sort_keys, keys, ex in ls]`. */
  function KeysOf<V>(es: seq<Entry<V>>): (ks: seq<string>)
    ensures |ks| == |es| && forall i :: 0 <= i < |es| ==> ks[i] == es[i].key
  {
    if es == [] then [] else [es[0].key] + KeysOf(es[1..])
  }

  /** Every entry carries its key's normalised form and its key's list. */
  ghost predicate Tagged<V>(es: seq<Entry<V>>, groups: map<string, seq<V>>)
  {
    forall e :: e in es ==> e.sortKey == NormalizeKey(e.key) && e.key in groups && e.records == groups[e.key]
  }

  lemma {:induction false} InsertTagged<V>(x: Entry<V>, r: seq<Entry<V>>, groups: map<string, seq<V>>)
    requires Tagged([x] + r, groups)
    ensures KeysOf(InsertBy(x, r, SortKeyOf)) == InsertBy(x.key, KeysOf(r), NormalizeKey)
    decreases |r|
  {
    assert x in [x] + r;
    if r != [] {
      assert r[0] in [x] + r;
      if !LexLeq(x.sortKey, r[0].sortKey) {
        assert Tagged([x] + r[1..], groups) by {
          assert forall e :: e in [x] + r[1..] ==> e in [x] + r;
        }
        InsertTagged(x, r[1..], groups);
        assert KeysOf(r)[1..] == KeysOf(r[1..]);
      }
    }
  }

  /** Sorting the entries by their first component and reading off their keys
      is sorting the keys by their normalised form. */
  lemma {:induction false} SortTagged<V>(es: seq<Entry<V>>, groups: map<string, seq<V>>)
    requires Tagged(es, groups)
    ensures KeysOf(SortBy(es, SortKeyOf)) == SortBy(KeysOf(es), NormalizeKey)
  {
    if es != [] {
      assert Tagged(es[1..], groups) by {
        assert forall e :: e in es[1..] ==> e in es;
      }
      SortTagged(es[1..], groups);
      var rest := SortBy(es[1..], SortKeyOf);
      SortByPermutation(es[1..], SortKeyOf);
      assert Tagged([es[0]] + rest, groups) by {
        forall e | e in [es[0]] + rest ensures e in es {
          if e in rest {
            assert e in multiset(es[1..]);
          }
        }
      }
      InsertTagged(es[0], rest, groups);
      assert KeysOf(es)[1..] == KeysOf(es[1..]);
    }
  }

  /** The order the reordering gives: sorted by normalised key, a
      rearrangement of the old keys, and keys with equal normalised forms
      keep their insertion order. */
  lemma ReorderedKeys(order: seq<string>)
    ensures SortedBy(SortBy(order, NormalizeKey), NormalizeKey)
    ensures multiset(SortBy(order, NormalizeKey)) == multiset(order)
    ensures forall k :: WithKey(SortBy(order, NormalizeKey), NormalizeKey, k) == WithKey(order, NormalizeKey, k)
    ensures NoRepeats(order) ==> NoRepeats(SortBy(order, NormalizeKey))
  {
    SortBySorted(order, NormalizeKey);
    SortByPermutation(order, NormalizeKey);
    forall k ensures WithKey(SortBy(order, NormalizeKey), NormalizeKey, k) == WithKey(order, NormalizeKey, k) {
      SortByStable(order, NormalizeKey, k);
    }
    if NoRepeats(order) {
      NoRepeatsPermutation(order, SortBy(order, NormalizeKey));
    }
  }

  // ---------------------------------------------------------------------------
  // rs_map itself

  class ResultGroups<V> {
    /** The keys of `rs_map` in the order the dict holds them. */
    var order: seq<string>
    /** The list of records under each key. */
    var groups: map<string, seq<V>>

    predicate Valid()
      reads this
    {
      WellFormed(Grouping(order, groups))
    }

    /** `rs_map = {}`. */
    constructor ()
      ensures order == [] && groups == map[] && Valid()
    {
      order := [];
      groups := map[];
    }

    /** File one record under `key` (lines 388-389 and 413). */
    method Add(key: string, record: V)
      requires Valid()
      modifies this
      ensures Grouping(order, groups) == AddRecord(old(Grouping(order, groups)), key, record)
      ensures Valid()
    {
      AddRecordWellFormed(Grouping(order, groups), key, record);
      if key in groups {
        groups := groups[key := groups[key] + [record]];
      } else {
        order := order + [key];
        groups := groups[key := [record]];
      }
    }

    /** The loop of lines 379-413 over the relevant examples of one batch. */
    method AddBatch(batchKeys: seq<string>, records: seq<V>)
      requires Valid() && |batchKeys| == |records|
      modifies this
      ensures Grouping(order, groups) == AddAll(old(Grouping(order, groups)), EvalKeys(batchKeys), records)
      ensures Valid()
    {
      ghost var keys := EvalKeys(batchKeys);
      var k := 0;
      while k < |records|
        invariant 0 <= k <= |records|
        invariant Valid()
        invariant Grouping(order, groups) == AddAll(old(Grouping(order, groups)), keys[..k], records[..k])
      {
        AddAllStep(old(Grouping(order, groups)), keys, records, k);
        Add(EvalKey(batchKeys[k]), records[k]);
        k := k + 1;
      }
      assert keys[..k] == keys && records[..k] == records;
    }

    /** Lines 429-435: list `(sort_keys, keys, ex)` for every key, sort the
        list by `sort_keys`, and rebuild the dict in that order. */
    method Reorder()
      requires Valid()
      modifies this
      ensures groups == old(groups)
      ensures order == SortBy(old(order), NormalizeKey)
      ensures Valid()
    {
      var ls := ListEntries(order, groups);
      var sorted := SortBy(ls, SortKeyOf);
      SortedEntries(ls, groups);
      var newOrder, newGroups := RebuildDict(sorted, groups);
      Rebuilt(order, groups, newOrder, newGroups);
      order := newOrder;
      groups := newGroups;
    }
  }

  /** Lines 429-435: one `(sort_keys, keys, ex)` entry per key of the dict, in
      the dict's order. */
  method ListEntries<V>(order: seq<string>, groups: map<string, seq<V>>) returns (ls: seq<Entry<V>>)
    requires forall k | k in order :: k in groups
    ensures KeysOf(ls) == order
    ensures Tagged(ls, groups)
  {
    ls := [];
    for i := 0 to |order|
      invariant |ls| == i
      invariant forall j :: 0 <= j < i ==> ls[j].key == order[j] && ls[j].sortKey == NormalizeKey(order[j])
      invariant forall j :: 0 <= j < i ==> ls[j].key in groups && ls[j].records == groups[ls[j].key]
    {
      assert order[i] in order;
      ls := ls + [Entry(NormalizeKey(order[i]), order[i], groups[order[i]])];
    }
    assert KeysOf(ls) == order;
    forall e | e in ls ensures e.sortKey == NormalizeKey(e.key) && e.key in groups && e.records == groups[e.key] {
      var j :| 0 <= j < |ls| && ls[j] == e;
    }
  }

  /** Line 437: a new dict filled from the sorted entries, so that it
      holds every entry's list under its key, in the entries' order. */
  method RebuildDict<V>(sorted: seq<Entry<V>>, ghost groups: map<string, seq<V>>)
    returns (newOrder: seq<string>, newGroups: map<string, seq<V>>)
    requires Tagged(sorted, groups)
    ensures newOrder == KeysOf(sorted)
    ensures forall k :: k in newGroups <==> k in newOrder
    ensures forall k :: k in newGroups ==> k in groups && newGroups[k] == groups[k]
  {
    newOrder := [];
    newGroups := map[];
    for i := 0 to |sorted|
      invariant |newOrder| == i && forall j :: 0 <= j < i ==> newOrder[j] == sorted[j].key
      invariant forall k :: k in newGroups <==> k in newOrder
      invariant forall k :: k in newGroups ==> k in groups && newGroups[k] == groups[k]
    {
      var e := sorted[i];
      assert e in sorted;
      assert e.key in groups && e.records == groups[e.key];
      newOrder := newOrder + [e.key];
      newGroups := newGroups[e.key := e.records];
    }
    assert newOrder == KeysOf(sorted);
  }

  /** What sorting `ls` gives: its keys in normalised order, and entries that
      still carry their key's list. */
  lemma SortedEntries<V>(ls: seq<Entry<V>>, groups: map<string, seq<V>>)
    requires Tagged(ls, groups)
    ensures KeysOf(SortBy(ls, SortKeyOf)) == SortBy(KeysOf(ls), NormalizeKey)
    ensures Tagged(SortBy(ls, SortKeyOf), groups)
  {
    SortTagged(ls, groups);
    SortByPermutation(ls, SortKeyOf);
    forall e | e in SortBy(ls, SortKeyOf) ensures e in ls {
      assert e in multiset(SortBy(ls, SortKeyOf));
    }
  }

  /** The dict comprehension over the sorted entries holds the same lists
      under the same keys, now in sorted order. */
  lemma Rebuilt<V>(order: seq<string>, groups: map<string, seq<V>>, newOrder: seq<string>, newGroups: map<string, seq<V>>)
    requires WellFormed(Grouping(order, groups))
    requires newOrder == SortBy(order, NormalizeKey)
    requires forall k :: k in newGroups <==> k in newOrder
    requires forall k :: k in newGroups ==> k in groups && newGroups[k] == groups[k]
    ensures newGroups == groups
    ensures WellFormed(Grouping(newOrder, newGroups))
  {
    ReorderedKeys(order);
    forall k | k in groups ensures k in newGroups {
      assert k in multiset(order);
    }
  }

  /** The batch's keys with the `None|None|` prefix. */
  function EvalKeys(batchKeys: seq<string>): (keys: seq<string>)
    ensures |keys| == |batchKeys| && forall i :: 0 <= i < |batchKeys| ==> keys[i] == EvalKey(batchKeys[i])
  {
    if batchKeys == [] then [] else [EvalKey(batchKeys[0])] + EvalKeys(batchKeys[1..])
  }
}

=== FILE: python_builtins.dfy ===
/** The Python built-ins the fine-tuning script leans on, given the meaning
    Python gives them: `//` and `%`, slicing with non-negative bounds,
    `str.split` and `str.join` on a one-character separator, `str` ordering,
    `sorted`, `int()` on text and `str()` on a natural number. */
module PyBuiltins {

  datatype Option<+T> = None | Some(value: T)

  function Min(a: int, b: int): int { if a <= b then a else b }


  // ---------------------------------------------------------------------------
  // Integer division

  /** `a // b`: the quotient rounded toward negative infinity. */
  function FloorDiv(a: int, b: int): (q: int)
    requires b != 0
    ensures b > 0 ==> q * b <= a < q * b + b
    ensures b < 0 ==> q * b + b < a <= q * b
  {
    if b > 0 then a / b else (-a) / (-b)
  }

  /** `a % b`: the remainder, which takes the sign of the divisor. */
  function FloorMod(a: int, b: int): (m: int)
    requires b != 0
    ensures FloorDiv(a, b) * b + m == a
    ensures b > 0 ==> 0 <= m < b
    ensures b < 0 ==> b < m <= 0
  {
    a - FloorDiv(a, b) * b
  }

  /** With a positive divisor Python's floor division is Dafny's Euclidean one. */
  lemma FloorDivPositive(a: int, b: int)
    requires b > 0
    ensures FloorDiv(a, b) == a / b && FloorMod(a, b) == a % b
  {
  }

  // ---------------------------------------------------------------------------
  // Slicing

  /** `s[lo:hi]` with non-negative bounds: both bounds are clamped to `len(s)`
      and an empty or inverted range gives the empty list. */
  function Slice<T>(s: seq<T>, lo: nat, hi: nat): (r: seq<T>)
    ensures |r| == if lo < hi && lo < |s| then Min(hi, |s|) - lo else 0
    ensures forall j :: 0 <= j < |r| ==> r[j] == s[lo + j]
  {
    if lo < hi && lo < |s| then s[lo..Min(hi, |s|)] else []
  }

  /** Two adjacent slices make up the slice that spans both. */
  lemma SliceAdjacent<T>(s: seq<T>, lo: nat, mid: nat, hi: nat)
    requires lo <= mid <= hi
    ensures Slice(s, lo, mid) + Slice(s, mid, hi) == Slice(s, lo, hi)
  {
  }

  /** A clamped prefix grows by the next slice. */
  lemma PrefixThenSlice<T>(s: seq<T>, a: nat, b: nat)
    requires a <= b
    ensures s[..Min(a, |s|)] + Slice(s, a, b) == s[..Min(b, |s|)]
  {
  }

  // ---------------------------------------------------------------------------
  // Distinct elements

  /** Every element occurs exactly once. */
  predicate NoRepeats<T(==)>(s: seq<T>)
  {
    forall x | x in s :: multiset(s)[x] == 1
  }

  /** A rearrangement of a list without repeats has none either. */
  lemma NoRepeatsPermutation<T>(a: seq<T>, b: seq<T>)
    requires NoRepeats(a) && multiset(a) == multiset(b)
    ensures NoRepeats(b)
  {
    forall x | x in b ensures multiset(b)[x] == 1 {
      assert x in multiset(b);
    }
  }

  // ---------------------------------------------------------------------------
  // str.split and str.join

  /** `s.split(sep)`: the pieces of text between consecutive separators, so
      there is always at least one piece and no piece holds the separator. */
  function Split(s: string, sep: char): (fields: seq<string>)
    ensures |fields| >= 1
    ensures forall f :: f in fields ==> sep !in f
    decreases |s|
  {
    if s == [] then [""]
    else
      var rest := Split(s[1..], sep);
      if s[0] == sep then [""] + rest
      else [[s[0]] + rest[0]] + rest[1..]
  }

  /** `sep.join(fields)`. */
  function Join(fields: seq<string>, sep: char): string
  {
    if fields == [] then ""
    else if |fields| == 1 then fields[0]
    else fields[0] + [sep] + Join(fields[1..], sep)
  }

  /** Text without the separator is one field. */
  lemma {:induction false} SplitWithoutSeparator(s: string, sep: char)
    requires sep !in s
    ensures Split(s, sep) == [s]
    decreases |s|
  {
    if s != [] {
      SplitWithoutSeparator(s[1..], sep);
      assert [s[0]] + s[1..] == s;
    }
  }

  /** Splitting at one separator splits the text on either side independently. */
  lemma {:induction false} SplitAround(a: string, sep: char, b: string)
    ensures Split(a + [sep] + b, sep) == Split(a, sep) + Split(b, sep)
    decreases |a|
  {
    var s := a + [sep] + b;
    if a == [] {
      assert s[1..] == b;
    } else {
      assert s[1..] == a[1..] + [sep] + b;
      SplitAround(a[1..], sep, b);
    }
  }

  /** Joining the fields of a split gives back the text. */
  lemma {:induction false} JoinSplit(s: string, sep: char)
    ensures Join(Split(s, sep), sep) == s
    decreases |s|
  {
    if s != [] {
      var rest := Split(s[1..], sep);
      JoinSplit(s[1..], sep);
      if s[0] != sep && |rest| > 1 {
        assert Join(rest, sep) == rest[0] + [sep] + Join(rest[1..], sep);
      }
    }
  }

  /** Splitting a join of separator-free fields gives back the fields. */
  lemma {:induction false} SplitJoin(fields: seq<string>, sep: char)
    requires |fields| >= 1
    requires forall f :: f in fields ==> sep !in f
    ensures Split(Join(fields, sep), sep) == fields
    decreases |fields|
  {
    if |fields| == 1 {
      SplitWithoutSeparator(fields[0], sep);
    } else {
      SplitJoin(fields[1..], sep);
      SplitWithoutSeparator(fields[0], sep);
      SplitAround(fields[0], sep, Join(fields[1..], sep));
      assert [fields[0]] + fields[1..] == fields;
    }
  }

  // ---------------------------------------------------------------------------
  // Ordering of str

  /** `a <= b` on str: code points compared left to right, a prefix first. */
  predicate LexLeq(a: string, b: string)
  {
    a == [] || (b != [] && (a[0] < b[0] || (a[0] == b[0] && LexLeq(a[1..], b[1..]))))
  }

  lemma {:induction false} LexLeqReflexive(a: string)
    ensures LexLeq(a, a)
  {
    if a != [] { LexLeqReflexive(a[1..]); }
  }

  lemma {:induction false} LexLeqTotal(a: string, b: string)
    ensures LexLeq(a, b) || LexLeq(b, a)
  {
    if a != [] && b != [] && a[0] == b[0] { LexLeqTotal(a[1..], b[1..]); }
  }

  lemma {:induction false} LexLeqTransitive(a: string, b: string, c: string)
    requires LexLeq(a, b) && LexLeq(b, c)
    ensures LexLeq(a, c)
  {
    if a != [] && a[0] == b[0] && b[0] == c[0] { LexLeqTransitive(a[1..], b[1..], c[1..]); }
  }

  lemma {:induction false} LexLeqAntisymmetric(a: string, b: string)
    requires LexLeq(a, b) && LexLeq(b, a)
    ensures a == b
  {
    if a != [] {
      LexLeqAntisymmetric(a[1..], b[1..]);
      assert a == [a[0]] + a[1..] && b == [b[0]] + b[1..];
    }
  }

  // ---------------------------------------------------------------------------
  // sorted

  function Identity(s: string): string { s }

  /** Ascending in `key` under str ordering, every pair of positions. */
  ghost predicate SortedBy<T>(s: seq<T>, key: T -> string)
  {
    forall i, j :: 0 <= i < j < |s| ==> LexLeq(key(s[i]), key(s[j]))
  }

  /** The elements whose key is `k`, in order. */
  function WithKey<T>(s: seq<T>, key: T -> string, k: string): seq<T>
  {
    if s == [] then []
    else (if key(s[0]) == k then [s[0]] else []) + WithKey(s[1..], key, k)
  }

  /** Puts `x` in front of the first element whose key is not below its own. */
  function InsertBy<T>(x: T, r: seq<T>, key: T -> string): seq<T>
  {
    if r == [] || LexLeq(key(x), key(r[0])) then [x] + r
    else [r[0]] + InsertBy(x, r[1..], key)
  }

  /** `sorted(s, key=key)`: a stable sort. A stable sort's result is fixed by
      its input, so insertion sort gives the list Python's sort gives. */
  function SortBy<T>(s: seq<T>, key: T -> string): seq<T>
  {
    if s == [] then [] else InsertBy(s[0], SortBy(s[1..], key), key)
  }

  lemma {:induction false} InsertByPermutation<T>(x: T, r: seq<T>, key: T -> string)
    ensures multiset(InsertBy(x, r, key)) == multiset{x} + multiset(r)
  {
    if r != [] && !LexLeq(key(x), key(r[0])) {
      InsertByPermutation(x, r[1..], key);
      assert r == [r[0]] + r[1..];
    }
  }

  /** `sorted` rearranges: the result holds the same elements, as often. */
  lemma {:induction false} SortByPermutation<T>(s: seq<T>, key: T -> string)
    ensures multiset(SortBy(s, key)) == multiset(s)
  {
    if s != [] {
      SortByPermutation(s[1..], key);
      InsertByPermutation(s[0], SortBy(s[1..], key), key);
      assert s == [s[0]] + s[1..];
    }
  }

  lemma {:induction false} InsertBySorted<T>(x: T, r: seq<T>, key: T -> string)
    requires SortedBy(r, key)
    ensures SortedBy(InsertBy(x, r, key), key)
  {
    var t := InsertBy(x, r, key);
    if r == [] {
    } else if LexLeq(key(x), key(r[0])) {
      forall i, j | 0 <= i < j < |t| ensures LexLeq(key(t[i]), key(t[j])) {
        if i == 0 {
          if j > 1 { LexLeqTransitive(key(x), key(r[0]), key(r[j - 1])); }
        } else {
          assert t[i] == r[i - 1] && t[j] == r[j - 1];
        }
      }
    } else {
      LexLeqTotal(key(x), key(r[0]));
      InsertBySorted(x, r[1..], key);
      var u := InsertBy(x, r[1..], key);
      InsertByPermutation(x, r[1..], key);
      forall i, j | 0 <= i < j < |t| ensures LexLeq(key(t[i]), key(t[j])) {
        if i == 0 {
          assert t[j] == u[j - 1];
          assert t[j] in multiset{x} + multiset(r[1..]) by { assert u[j - 1] in multiset(u); }
          if t[j] != x {
            var m :| 0 <= m < |r[1..]| && r[1..][m] == t[j];
            assert r[0] == r[0] && r[m + 1] == t[j];
          }
        } else {
          assert t[i] == u[i - 1] && t[j] == u[j - 1];
        }
      }
    }
  }

  /** `sorted` yields a list ascending in the key. */
  lemma {:induction false} SortBySorted<T>(s: seq<T>, key: T -> string)
    ensures SortedBy(SortBy(s, key), key)
  {
    if s != [] {
      SortBySorted(s[1..], key);
      InsertBySorted(s[0], SortBy(s[1..], key), key);
    }
  }

  lemma {:induction false} InsertByStable<T>(x: T, r: seq<T>, key: T -> string, k: string)
    ensures WithKey(InsertBy(x, r, key), key, k) == WithKey([x] + r, key, k)
  {
    if r != [] && !LexLeq(key(x), key(r[0])) {
      LexLeqReflexive(key(x));
      InsertByStable(x, r[1..], key, k);
      assert ([x] + r)[1..] == r;
      assert ([x] + r[1..])[1..] == r[1..];
      assert ([r[0]] + InsertBy(x, r[1..], key))[1..] == InsertBy(x, r[1..], key);
    }
  }

  /** `sorted` is stable: elements with equal keys keep their relative order. */
  lemma {:induction false} SortByStable<T>(s: seq<T>, key: T -> string, k: string)
    ensures WithKey(SortBy(s, key), key, k) == WithKey(s, key, k)
  {
    if s != [] {
      SortByStable(s[1..], key, k);
      InsertByStable(s[0], SortBy(s[1..], key), key, k);
      assert ([s[0]] + SortBy(s[1..], key))[1..] == SortBy(s[1..], key);
    }
  }

  /** Sorting a list that is already in order leaves it alone. */
  lemma {:induction false} SortBySortedInput<T>(s: seq<T>, key: T -> string)
    requires SortedBy(s, key)
    ensures SortBy(s, key) == s
  {
    if s != [] {
      SortedTail(s, key);
      SortBySortedInput(s[1..], key);
      if |s| > 1 { assert LexLeq(key(s[0]), key(s[1])); }
      assert [s[0]] + s[1..] == s;
    }
  }

  lemma SortedTail<T>(s: seq<T>, key: T -> string)
    requires s != [] && SortedBy(s, key)
    ensures SortedBy(s[1..], key)
  {
    forall i, j | 0 <= i < j < |s[1..]| ensures LexLeq(key(s[1..][i]), key(s[1..][j])) {
      assert s[1..][i] == s[i + 1] && s[1..][j] == s[j + 1];
    }
  }

  /** The head of an ascending list of strings is below every string in it. */
  lemma SortedHeadLeast(s: seq<string>, x: string)
    requires SortedBy(s, Identity) && x in s
    ensures LexLeq(s[0], x)
  {
    var i :| 0 <= i < |s| && s[i] == x;
    if i > 0 { assert LexLeq(Identity(s[0]), Identity(s[i])); } else { LexLeqReflexive(x); }
  }

  lemma MultisetTail<T>(a: seq<T>, b: seq<T>)
    requires a != [] && b != [] && a[0] == b[0] && multiset(a) == multiset(b)
    ensures multiset(a[1..]) == multiset(b[1..])
  {
    assert a == [a[0]] + a[1..] && b == [b[0]] + b[1..];
    assert multiset(a) == multiset{a[0]} + multiset(a[1..]);
    assert multiset(b) == multiset{b[0]} + multiset(b[1..]);
    assert multiset(a[1..]) == multiset(a) - multiset{a[0]};
    assert multiset(b[1..]) == multiset(b) - multiset{b[0]};
  }

  /** Two ascending arrangements of the same strings are the same list. */
  lemma {:induction false} SortedUnique(a: seq<string>, b: seq<string>)
    requires SortedBy(a, Identity) && SortedBy(b, Identity)
    requires multiset(a) == multiset(b)
    ensures a == b
    decreases |a|
  {
    assert |a| == |multiset(a)| == |multiset(b)| == |b|;
    if a != [] {
      assert a[0] in multiset(b) by { assert a[0] in multiset(a); }
      assert b[0] in multiset(a) by { assert b[0] in multiset(b); }
      SortedHeadLeast(b, a[0]);
      SortedHeadLeast(a, b[0]);
      LexLeqAntisymmetric(a[0], b[0]);
      MultisetTail(a, b);
      SortedTail(a, Identity);
      SortedTail(b, Identity);
      SortedUnique(a[1..], b[1..]);
      assert a == [a[0]] + a[1..] && b == [b[0]] + b[1..];
    }
  }

  /** `sorted` on strings depends only on which strings there are. */
  lemma SortStringsPermutationInvariant(a: seq<string>, b: seq<string>)
    requires multiset(a) == multiset(b)
    ensures SortBy(a, Identity) == SortBy(b, Identity)
  {
    SortBySorted(a, Identity);
    SortBySorted(b, Identity);
    SortByPermutation(a, Identity);
    SortByPermutation(b, Identity);
    SortedUnique(SortBy(a, Identity), SortBy(b, Identity));
  }

  // ---------------------------------------------------------------------------
  // int() on text and str() on a natural number

  predicate IsDigit(c: char) { '0' <= c <= '9' }

  /** The white space `int()` skips around the number in an ASCII string:
      space, tab, line feed, vertical tab, form feed and carriage return.
      The separators 0x1C to 0x1F, which `str.isspace()` accepts, are not
      skipped: `int()` rejects them. */
  predicate IsSpace(c: char)
  {
    c == ' ' || ('\U{9}' <= c <= '\U{D}')
  }

  /** Every character of `s` is white space. */
  predicate AllSpace(s: string)
  {
    forall i :: 0 <= i < |s| ==> IsSpace(s[i])
  }

  /** `s` without its leading white space. */
  function StripLeading(s: string): (t: string)
    ensures |t| <= |s| && t == s[|s| - |t|..]
    ensures AllSpace(s[..|s| - |t|])
    ensures t == [] || !IsSpace(t[0])
  {
    if s != [] && IsSpace(s[0]) then
      var t := StripLeading(s[1..]);
      LeadingStep(s, t);
      t
    else s
  }

  /** `s` without its trailing white space. */
  function StripTrailing(s: string): (t: string)
    ensures |t| <= |s| && t == s[..|t|]
    ensures AllSpace(s[|t|..])
    ensures t == [] || !IsSpace(t[|t| - 1])
  {
    if s != [] && IsSpace(s[|s| - 1]) then
      var t := StripTrailing(s[..|s| - 1]);
      TrailingStep(s, t);
      t
    else s
  }

  /** A space in front of a suffix with only white space before it. */
  lemma LeadingStep(s: string, t: string)
    requires s != [] && IsSpace(s[0])
    requires |t| <= |s| - 1 && t == s[1..][|s| - 1 - |t|..]
    requires AllSpace(s[1..][..|s| - 1 - |t|])
    ensures t == s[|s| - |t|..] && AllSpace(s[..|s| - |t|])
  {
    assert s[..|s| - |t|] == [s[0]] + s[1..][..|s| - 1 - |t|];
  }

  /** A space after a prefix with only white space after it. */
  lemma TrailingStep(s: string, t: string)
    requires s != [] && IsSpace(s[|s| - 1])
    requires |t| <= |s| - 1 && t == s[..|s| - 1][..|t|]
    requires AllSpace(s[..|s| - 1][|t|..])
    ensures t == s[..|t|] && AllSpace(s[|t|..])
  {
    assert s[|t|..] == s[..|s| - 1][|t|..] + [s[|s| - 1]];
  }

  /** The text `int()` parses: `s` without its leading and trailing white space
      (`StripShape` says it is all of `s` but that white space). */
  function Strip(s: string): (t: string)
    ensures |t| <= |s|
    ensures t == [] || (!IsSpace(t[0]) && !IsSpace(t[|t| - 1]))
  {
    StripTrailing(StripLeading(s))
  }

  /** `s` is white space, then `Strip(s)`, then white space. */
  lemma StripShape(s: string)
    ensures exists a, b :: s == a + Strip(s) + b && AllSpace(a) && AllSpace(b)
  {
    var u := StripLeading(s);
    var t := StripTrailing(u);
    var a, b := s[..|s| - |u|], u[|t|..];
    Sandwich(s, u, t);
    assert s == a + Strip(s) + b && AllSpace(a) && AllSpace(b);
  }

  /** A prefix `t` of a suffix `u` of `s` splits `s` in three. */
  lemma Sandwich(s: string, u: string, t: string)
    requires |u| <= |s| && u == s[|s| - |u|..]
    requires |t| <= |u| && t == u[..|t|]
    ensures s == s[..|s| - |u|] + t + u[|t|..]
  {
    assert s == s[..|s| - |u|] + u;
    assert u == t + u[|t|..];
  }

  /** White space in front of text that does not start with it is dropped. */
  lemma {:induction false} StripLeadingSpaces(a: string, u: string)
    requires AllSpace(a)
    requires u == [] || !IsSpace(u[0])
    ensures StripLeading(a + u) == u
    decreases |a|
  {
    if a == [] {
      assert a + u == u;
    } else {
      assert (a + u)[1..] == a[1..] + u;
      StripLeadingSpaces(a[1..], u);
    }
  }

  /** White space after text that does not end with it is dropped. */
  lemma {:induction false} StripTrailingSpaces(u: string, b: string)
    requires AllSpace(b)
    requires u == [] || !IsSpace(u[|u| - 1])
    ensures StripTrailing(u + b) == u
    decreases |b|
  {
    if b == [] {
      assert u + b == u;
    } else {
      assert (u + b)[..|u + b| - 1] == u + b[..|b| - 1];
      StripTrailingSpaces(u, b[..|b| - 1]);
    }
  }

  /** The digits `int()` accepts after an optional sign: ASCII digits with
      single underscores allowed between two digits. */
  predicate WellFormedDigits(d: string)
  {
    |d| > 0 && IsDigit(d[0]) && IsDigit(d[|d| - 1]) &&
    (forall i :: 0 <= i < |d| ==> IsDigit(d[i]) || d[i] == '_') &&
    (forall i :: 0 <= i < |d| - 1 ==> d[i] == '_' ==> d[i + 1] != '_')
  }

  /** The decimal value of digits, underscores skipped. */
  function DigitsValue(d: string): int
  {
    if d == [] then 0
    else if d[|d| - 1] == '_' then DigitsValue(d[..|d| - 1])
    else DigitsValue(d[..|d| - 1]) * 10 + (d[|d| - 1] as int - '0' as int)
  }

  /** `int(s)`, or `None` where Python raises ValueError. Only ASCII digits
      and white space are recognised. */
  function ParseInt(s: string): (r: Option<int>)
    ensures r.Some? ==> exists c :: c in s && IsDigit(c)
    ensures r.Some? && '-' !in s ==> r.value >= 0
  {
    var t := Strip(s);
    StripShape(s);
    assert forall c :: c in t ==> c in s;
    ParseSignedDigits(t)
  }

  /** What `int()` does with the text left after stripping: an optional
      sign, then well-formed digits. */
  function ParseSignedDigits(t: string): (r: Option<int>)
    ensures r.Some? ==> exists c :: c in t && IsDigit(c)
    ensures r.Some? && '-' !in t ==> r.value >= 0
  {
    if |t| > 0 && (t[0] == '+' || t[0] == '-') then
      if WellFormedDigits(t[1..]) then
        assert t[1..][0] in t;
        NonNegativeDigits(t[1..]);
        Some(if t[0] == '-' then -DigitsValue(t[1..]) else DigitsValue(t[1..]))
      else None
    else if WellFormedDigits(t) then
      assert t[0] in t;
      NonNegativeDigits(t);
      Some(DigitsValue(t))
    else None
  }

  lemma {:induction false} NonNegativeDigits(d: string)
    requires forall i :: 0 <= i < |d| ==> IsDigit(d[i]) || d[i] == '_'
    ensures DigitsValue(d) >= 0
  {
    if d != [] { NonNegativeDigits(d[..|d| - 1]); }
  }

  function DigitChar(d: nat): (c: char)
    requires d < 10
    ensures IsDigit(c)
  {
    ('0' as int + d) as char
  }

  /** `str(n)` for a natural number: its decimal digits, without leading zeros. */
  function DecimalString(n: nat): (s: string)
    ensures |s| > 0
    ensures forall i :: 0 <= i < |s| ==> IsDigit(s[i])
  {
    if n < 10 then [DigitChar(n)] else DecimalString(n / 10) + [DigitChar(n % 10)]
  }

  lemma {:induction false} DecimalStringValue(n: nat)
    ensures DigitsValue(DecimalString(n)) == n
  {
    var s := DecimalString(n);
    if n < 10 {
      assert s[..0] == [];
    } else {
      DecimalStringValue(n / 10);
      assert s[..|s| - 1] == DecimalString(n / 10);
    }
  }

  lemma StripNoSpace(s: string)
    requires forall i :: 0 <= i < |s| ==> !IsSpace(s[i])
    ensures Strip(s) == s
  {
    StripLeadingSpaces([], s);
    StripTrailingSpaces(s, []);
    assert [] + s == s && s + [] == s;
  }

  /** `int()` raises ValueError on a word that starts with neither a
      sign nor a digit: `int("base")`. */
  lemma ParseIntRejectsWord(w: string)
    requires w != [] && !IsDigit(w[0]) && w[0] != '+' && w[0] != '-'
    requires forall i :: 0 <= i < |w| ==> !IsSpace(w[i])
    ensures ParseInt(w) == None
  {
    StripNoSpace(w);
    assert ParseInt(w) == ParseSignedDigits(w);
    assert !WellFormedDigits(w);
  }

  /** `int()` on digits with an optional sign and surrounding white space:
      `int(" -1_000 ") == -1000`. */
  lemma ParseSigned(before: string, sign: string, d: string, after: string)
    requires AllSpace(before)
    requires AllSpace(after)
    requires sign == "" || sign == "+" || sign == "-"
    requires WellFormedDigits(d)
    ensures ParseInt(before + sign + d + after) == Some(if sign == "-" then -DigitsValue(d) else DigitsValue(d))
  {
    var t := sign + d;
    assert before + sign + d + after == before + t + after;
    StripAround(before, t, after);
    SignedDigitsValue(sign, d);
  }

  /** Strip drops the white space around text that neither starts nor ends
      with white space. */
  lemma StripAround(before: string, t: string, after: string)
    requires AllSpace(before)
    requires AllSpace(after)
    requires t != [] && !IsSpace(t[0]) && !IsSpace(t[|t| - 1])
    ensures Strip(before + t + after) == t
  {
    assert before + t + after == before + (t + after);
    StripTrailingSpaces(t, after);
    StripLeadingSpaces(before, t + after);
  }

  /** A sign and well-formed digits parse to their signed value. */
  lemma SignedDigitsValue(sign: string, d: string)
    requires sign == "" || sign == "+" || sign == "-"
    requires WellFormedDigits(d)
    ensures ParseSignedDigits(sign + d) == Some(if sign == "-" then -DigitsValue(d) else DigitsValue(d))
  {
    var t := sign + d;
    if sign == "" {
      assert t == d;
      assert !(t[0] == '+' || t[0] == '-');
    } else {
      assert t[0] == sign[0] && t[1..] == d;
    }
  }

  /** `s` is a base-10 literal that `int()` reads as `v`: white space, an
      optional sign, well-formed digits, white space. */
  ghost predicate IntText(s: string, v: int)
  {
    exists before, sign, d, after :: IntParts(s, v, before, sign, d, after)
  }

  /** `s` splits into `before + sign + d + after` as `IntText` describes. */
  predicate IntParts(s: string, v: int, before: string, sign: string, d: string, after: string)
  {
    s == before + sign + d + after && AllSpace(before) && AllSpace(after) &&
    (sign == "" || sign == "+" || sign == "-") && WellFormedDigits(d) &&
    v == (if sign == "-" then -DigitsValue(d) else DigitsValue(d))
  }

  /** `int(s)` returns `v` exactly when `s` is a literal for `v`; on any other
      text (`"12abc"`, `"1__0"`, `"_1"`, `"+-1"`, `"- 5"`) it raises ValueError.
      The interpreter's limit on the number of digits (`int_max_str_digits`)
      is not part of this model: a literal longer than that limit is accepted
      here. */
  lemma ParseIntExactly(s: string, v: int)
    ensures ParseInt(s) == Some(v) <==> IntText(s, v)
  {
    if ParseInt(s) == Some(v) {
      ParseIntSound(s);
    }
    if IntText(s, v) {
      ParseIntComplete(s, v);
    }
  }

  lemma ParseIntComplete(s: string, v: int)
    requires IntText(s, v)
    ensures ParseInt(s) == Some(v)
  {
    var before, sign, d, after :| IntParts(s, v, before, sign, d, after);
    PartsParse(s, v, before, sign, d, after);
  }

  /** `ParseSigned` for a text already known to be `before + sign + d + after`. */
  lemma PartsParse(s: string, v: int, before: string, sign: string, d: string, after: string)
    requires AllSpace(before)
    requires AllSpace(after)
    requires sign == "" || sign == "+" || sign == "-"
    requires WellFormedDigits(d)
    requires s == before + sign + d + after
    requires v == (if sign == "-" then -DigitsValue(d) else DigitsValue(d))
    ensures ParseInt(s) == Some(v)
  {
    ParseSigned(before, sign, d, after);
  }


  /** Whatever `int()` accepts is a literal for the value it returns. */
  lemma ParseIntSound(s: string)
    requires ParseInt(s).Some?
    ensures IntText(s, ParseInt(s).value)
  {
    StripShape(s);
    var t := Strip(s);
    var a, b :| s == a + t + b && AllSpace(a) && AllSpace(b);
    assert ParseInt(s) == ParseSignedDigits(t);
    var sign, d := SignedDigitsSound(t);
    var v := ParseInt(s).value;
    assert s == a + sign + d + b by {
      Regroup(a, sign, d);
    }
    IntTextOf(s, a, sign, d, b, v);
  }

  lemma IntTextOf(s: string, before: string, sign: string, d: string, after: string, v: int)
    requires s == before + sign + d + after && AllSpace(before) && AllSpace(after)
    requires (sign == "" || sign == "+" || sign == "-") && WellFormedDigits(d)
    requires v == (if sign == "-" then -DigitsValue(d) else DigitsValue(d))
    ensures IntText(s, v)
  {
    assert IntParts(s, v, before, sign, d, after);
  }

  lemma Regroup(a: string, b: string, c: string)
    ensures a + (b + c) == a + b + c
  {
  }

  /** Whatever is left after stripping and parses is a sign and digits. */
  lemma SignedDigitsSound(t: string) returns (sign: string, d: string)
    requires ParseSignedDigits(t).Some?
    ensures t == sign + d && (sign == "" || sign == "+" || sign == "-") && WellFormedDigits(d)
    ensures ParseSignedDigits(t).value == if sign == "-" then -DigitsValue(d) else DigitsValue(d)
  {
    if |t| > 0 && (t[0] == '+' || t[0] == '-') {
      sign, d := [t[0]], t[1..];
    } else {
      sign, d := "", t;
    }
  }

  /** `int(str(n)) == n`. */
  lemma ParseDecimalString(n: nat)
    ensures ParseInt(DecimalString(n)) == Some(n)
  {
    var s := DecimalString(n);
    assert WellFormedDigits(s);
    ParseSigned([], "", s, []);
    assert [] + "" + s + [] == s;
    DecimalStringValue(n);
  }
}

=== FILE: resume.dfy ===
/** Where training starts (roberta_fine-tuning.py:167-184): either from
    scratch, or from the global step encoded in the name of a checkpoint
    directory that `train` saved earlier (line 263). Whether the path exists
    on disk is an input. */
module Resume {
  import opened PyBuiltins

  /** `global_step`, `epochs_trained` and `steps_trained_in_current_epoch`. */
  datatype ResumeState = ResumeState(globalStep: int, epochsTrained: int, stepsInEpoch: int)

  /** The three counters, or the ZeroDivisionError raised when an epoch holds
      fewer batches than one accumulation round (`len // gas == 0`). Only
      ValueError is caught around the resume, so that error ends the run. */
  datatype ResumeOutcome = Started(state: ResumeState) | ZeroDivisionError

  /** The counters of a run that does not resume: `global_step` starts at 1. */
  function FreshStart(): ResumeState
  {
    ResumeState(1, 0, 0)
  }

  /** The last element of a non-empty list, `xs[-1]`. */
  function Last<T>(xs: seq<T>): T
    requires |xs| > 0
  {
    xs[|xs| - 1]
  }

  /** `suffix` follows the last `-` of `path` (or starts `path` when it has
      no `-`), holds no `-` or `/`, and ends where `path` ends or at the next
      `/`. */
  ghost predicate FieldAfterLastDash(path: string, suffix: string)
  {
    '-' !in suffix && '/' !in suffix &&
    ('-' in path ==>
       exists before, rest :: (path == before + ['-'] + suffix + rest &&
                               '-' !in rest && (rest == [] || rest[0] == '/'))) &&
    ('-' !in path ==> exists rest :: path == suffix + rest && (rest == [] || rest[0] == '/'))
  }

  /** `path.split("-")[-1].split("/")[0]`: the text after the last `-`, up to
      the first `/` after it; without a `-`, the text up to the first `/`. */
  function CheckpointSuffix(path: string): (suffix: string)
    ensures FieldAfterLastDash(path, suffix)
  {
    var afterDash := Last(Split(path, '-'));
    var suffix := Split(afterDash, '/')[0];
    SuffixShape(path, afterDash, suffix);
    suffix
  }

  /** Where the first field after the last `-` sits in the path. */
  lemma SuffixShape(path: string, afterDash: string, suffix: string)
    requires afterDash == Last(Split(path, '-'))
    requires suffix == Split(afterDash, '/')[0]
    ensures FieldAfterLastDash(path, suffix)
  {
    SplitFirst(afterDash, '/');
    var rest :| afterDash == suffix + rest && (rest == [] || rest[0] == '/');
    assert '-' !in afterDash by {
      assert afterDash in Split(path, '-');
    }
    assert '/' !in suffix by {
      assert suffix in Split(afterDash, '/');
    }
    if '-' in path {
      SuffixAfterDash(path, afterDash, suffix, rest);
    } else {
      SuffixWithoutDash(path, suffix, rest);
    }
  }

  lemma SuffixAfterDash(path: string, afterDash: string, suffix: string, rest: string)
    requires '-' in path && afterDash == Last(Split(path, '-'))
    requires afterDash == suffix + rest && '-' !in afterDash
    ensures '-' !in rest
    ensures exists before :: path == before + ['-'] + suffix + rest
  {
    SplitAfterLast(path, '-');
    var before :| path == before + ['-'] + afterDash;
    Regroup(before + ['-'], suffix, rest);
  }

  lemma SuffixWithoutDash(path: string, suffix: string, rest: string)
    requires '-' !in path && Last(Split(path, '-')) == suffix + rest
    ensures path == suffix + rest
    ensures '-' !in suffix
  {
    SplitWithoutSeparator(path, '-');
  }

  /** The last field of a split is the text after the last separator, or the
      whole text when there is none. */
  lemma SplitLast(s: string, sep: char)
    ensures sep !in s ==> Last(Split(s, sep)) == s
    ensures sep in s ==> exists before :: s == before + [sep] + Last(Split(s, sep))
  {
    if sep in s {
      SplitAfterLast(s, sep);
    } else {
      SplitWithoutSeparator(s, sep);
    }
  }

  lemma {:induction false} SplitAfterLast(s: string, sep: char)
    requires sep in s
    ensures exists before :: s == before + [sep] + Last(Split(s, sep))
    decreases |s|
  {
    var init, c := s[..|s| - 1], s[|s| - 1];
    assert s == init + [c];
    if c == sep {
      SplitAround(init, sep, []);
      assert s == init + [sep] + [];
    } else {
      assert sep in init;
      SplitAfterLast(init, sep);
      var l := Last(Split(init, sep));
      var before :| init == before + [sep] + l;
      assert sep !in l + [c] by {
        assert l in Split(init, sep);
      }
      assert s == before + [sep] + (l + [c]);
      SplitAround(before, sep, l + [c]);
      SplitWithoutSeparator(l + [c], sep);
    }
  }


  /** The first field of a split runs up to the first separator. */
  lemma {:induction false} SplitFirst(s: string, sep: char)
    ensures exists rest :: s == Split(s, sep)[0] + rest && (rest == [] || rest[0] == sep)
    decreases |s|
  {
    if s == [] {
      assert s == Split(s, sep)[0] + [];
    } else if s[0] == sep {
      assert s == Split(s, sep)[0] + s;
    } else {
      SplitFirst(s[1..], sep);
      var rest :| s[1..] == Split(s[1..], sep)[0] + rest && (rest == [] || rest[0] == sep);
      assert s == ([s[0]] + Split(s[1..], sep)[0]) + rest;
    }
  }

  /** Optimizer steps per epoch: `len(train_dataloader) // gradient_accumulation_steps`. */
  function StepsPerEpoch(numBatches: nat, accumulation: int): int
    requires accumulation != 0
  {
    FloorDiv(numBatches, accumulation)
  }

  /** `epochs_trained = global_step // s` and `steps_trained_in_current_epoch
      = global_step % s` for `s` optimizer steps per epoch: whole epochs and
      the steps into the current one. */
  function StateAt(globalStep: int, s: int): (state: ResumeState)
    requires s != 0
    ensures state.globalStep == globalStep
    ensures state.epochsTrained * s + state.stepsInEpoch == globalStep
    ensures s > 0 ==> 0 <= state.stepsInEpoch < s
    ensures s > 0 && globalStep >= 0 ==> state.epochsTrained >= 0
  {
    var state := ResumeState(globalStep, FloorDiv(globalStep, s), FloorMod(globalStep, s));
    assert s > 0 && globalStep >= 0 ==> state.epochsTrained >= 0 by {
      if s > 0 {
        FloorDivPositive(globalStep, s);
      }
    }
    state
  }

  /** The counters at the start of training. `accumulation` is never 0 here:
      the script has already divided by it when it computed the total number
      of optimization steps (lines 120-124). */
  function ResumeFrom(path: string, pathExists: bool, numBatches: nat, accumulation: int): (o: ResumeOutcome)
    requires accumulation != 0
    ensures !pathExists || ParseInt(CheckpointSuffix(path)).None? ==> o == Started(FreshStart())
    ensures o.ZeroDivisionError? <==>
              pathExists && ParseInt(CheckpointSuffix(path)).Some? && StepsPerEpoch(numBatches, accumulation) == 0
    ensures o.Started? && o.state != FreshStart() ==> o.state.globalStep >= 0
    ensures o.Started? && pathExists && ParseInt(CheckpointSuffix(path)).Some? ==>
              var s := StepsPerEpoch(numBatches, accumulation);
              o.state.globalStep == ParseInt(CheckpointSuffix(path)).value &&
              o.state.epochsTrained * s + o.state.stepsInEpoch == o.state.globalStep &&
              (s > 0 ==> 0 <= o.state.stepsInEpoch < s && o.state.epochsTrained >= 0)
  {
    if !pathExists then Started(FreshStart())
    else
      match ParseInt(CheckpointSuffix(path))
      case None => Started(FreshStart())
      case Some(globalStep) =>
        var s := StepsPerEpoch(numBatches, accumulation);
        if s == 0 then ZeroDivisionError else Started(StateAt(globalStep, s))
  }

  /** POSIX `os.path.join(a, b)`. */
  function JoinPath(a: string, b: string): string
  {
    if |b| > 0 && b[0] == '/' then b
    else if a == [] || a[|a| - 1] == '/' then a + b
    else a + "/" + b
  }

  /** The directory a checkpoint at `global_step` is saved to (line 263):
      `os.path.join(output_dir, "checkpoint-{}".format(global_step))`. */
  function CheckpointDir(outputDir: string, globalStep: nat): (dir: string)
    ensures exists prefix :: dir == prefix + ['-'] + DecimalString(globalStep)
  {
    var dir := JoinPath(outputDir, "checkpoint-" + DecimalString(globalStep));
    assert dir == (if outputDir == [] || outputDir[|outputDir| - 1] == '/' then outputDir else outputDir + "/")
                  + "checkpoint" + ['-'] + DecimalString(globalStep);
    dir
  }

  /** The text after the last `-` is what the resume reads back. */
  lemma SuffixAfterLastDash(prefix: string, tail: string)
    requires '-' !in tail && '/' !in tail
    ensures CheckpointSuffix(prefix + ['-'] + tail) == tail
    ensures CheckpointSuffix(prefix + ['-'] + tail + ['/']) == tail
  {
    SplitAround(prefix, '-', tail);
    SplitWithoutSeparator(tail, '-');
    SplitWithoutSeparator(tail, '/');
    var slashed := tail + ['/'];
    assert '-' !in slashed;
    SplitAround(prefix, '-', slashed);
    SplitWithoutSeparator(slashed, '-');
    assert prefix + ['-'] + tail + ['/'] == prefix + ['-'] + slashed;
    SplitAround(tail, '/', []);
    assert tail + ['/'] + [] == slashed;
    assert Split([], '/') == [""];
    assert Split(slashed, '/') == [tail, ""];
  }

  /** Resuming from a directory the script saved at `global_step = g`, named
      with or without a trailing `/`, restores `g` and splits it into whole
      epochs and the optimizer steps already taken in the current one. */
  lemma ResumeFromSavedCheckpoint(outputDir: string, g: nat, trailingSlash: bool, numBatches: nat, accumulation: int)
    requires accumulation > 0 && numBatches / accumulation > 0
    ensures var dir := CheckpointDir(outputDir, g);
            var path := if trailingSlash then dir + ['/'] else dir;
            var s := numBatches / accumulation;
            ResumeFrom(path, true, numBatches, accumulation) == Started(ResumeState(g, g / s, g % s))
  {
    var dir := CheckpointDir(outputDir, g);
    var path := if trailingSlash then dir + ['/'] else dir;
    var digits := DecimalString(g);
    var prefix :| dir == prefix + ['-'] + digits;
    assert '-' !in digits && '/' !in digits by {
      forall i | 0 <= i < |digits| ensures digits[i] != '-' && digits[i] != '/' {
        assert IsDigit(digits[i]);
      }
    }
    SuffixAfterLastDash(prefix, digits);
    ResumeFromDigits(path, g, numBatches, accumulation);
  }

  lemma ResumeFromDigits(path: string, g: nat, numBatches: nat, accumulation: int)
    requires accumulation > 0 && numBatches / accumulation > 0
    requires CheckpointSuffix(path) == DecimalString(g)
    ensures var s := numBatches / accumulation;
            ResumeFrom(path, true, numBatches, accumulation) == Started(ResumeState(g, g / s, g % s))
  {
    ParseDecimalString(g);
    assert ParseInt(CheckpointSuffix(path)) == Some(g);
    var s := StepsPerEpoch(numBatches, accumulation);
    assert ResumeFrom(path, true, numBatches, accumulation) == Started(StateAt(g, s));
    assert s == numBatches / accumulation by {
      FloorDivPositive(numBatches, accumulation);
    }
    assert FloorDiv(g, s) == g / s && FloorMod(g, s) == g % s by {
      FloorDivPositive(g, s);
    }
  }

  /** A model name such as `roberta-base` is not a checkpoint: `int("base")`
      raises ValueError and training starts from scratch. */
  lemma PretrainedNameStartsFresh(numBatches: nat, accumulation: int)
    requires accumulation != 0
    ensures ResumeFrom("roberta-base", true, numBatches, accumulation) == Started(FreshStart())
  {
    SuffixAfterLastDash("roberta", "base");
    assert "roberta" + ['-'] + "base" == "roberta-base";
    var base := "base";
    assert base[0] == 'b' && base[1] == 'a' && base[2] == 's' && base[3] == 'e';
    forall i | 0 <= i < |base| ensures !IsSpace(base[i]) {
      assert i == 0 || i == 1 || i == 2 || i == 3;
    }
    ParseIntRejectsWord(base);
  }
}

=== FILE: squad_subset.dfy ===
/** The SQuAD subset drawn for each epoch (roberta_fine-tuning.py:86-91 and
    196-200): a sample of positions into the loaded SQuAD columns, and every
    column of the encoding cut down to those positions. The columns are
    modelled as sequences of opaque values and the sample is an input. */
module SquadSubset {
  import opened PyBuiltins

  /** How many SQuAD examples are loaded: `min(int(num_train // 4 * 7), 100000)`. */
  function SquadCount(numTrain: int): (count: int)
    ensures count <= 100000 && count <= FloorDiv(numTrain, 4) * 7
    ensures count == 100000 || count == FloorDiv(numTrain, 4) * 7
  {
    Min(FloorDiv(numTrain, 4) * 7, 100000)
  }

  /** `random.sample(range(squadcount), num_train // 4)` can only draw its
      sample when the population is large enough; for a non-negative
      `num_train` that fails exactly when `num_train // 4` exceeds 100000. */
  lemma SampleFits(numTrain: nat)
    ensures numTrain / 4 <= SquadCount(numTrain) <==> numTrain / 4 <= 100000
  {
    FloorDivPositive(numTrain, 4);
  }

  /** `[column[x] for x in indices]`: `None` stands for the IndexError raised
      when a sampled position lies past the end of the column. */
  function ProjectColumn<V>(column: seq<V>, indices: seq<nat>): (r: Option<seq<V>>)
    ensures r.Some? <==> forall j :: 0 <= j < |indices| ==> indices[j] < |column|
    ensures r.Some? ==> |r.value| == |indices| && forall j :: 0 <= j < |indices| ==> r.value[j] == column[indices[j]]
  {
    if indices == [] then Some([])
    else
      var last := indices[|indices| - 1];
      match ProjectColumn(column, indices[..|indices| - 1])
      case None => None
      case Some(init) => if last < |column| then Some(init + [column[last]]) else None
  }

  /** `list(range(n))`. */
  function Range(n: nat): (r: seq<nat>)
    ensures |r| == n && forall j :: 0 <= j < n ==> r[j] == j
  {
    if n == 0 then [] else Range(n - 1) + [n - 1]
  }

  /** Projecting a column on all of its positions, in order, gives it back. */
  lemma ProjectRange<V>(column: seq<V>)
    ensures ProjectColumn(column, Range(|column|)) == Some(column)
  {
    var all := Range(|column|);
    assert forall j :: 0 <= j < |all| ==> all[j] < |column|;
    var r := ProjectColumn(column, all);
    assert r.value == column;
  }

  /** Projecting on `outer` after projecting on `inner` is projecting once on
      the composed positions `[inner[k] for k in outer]`. */
  lemma ProjectCompose<V>(column: seq<V>, inner: seq<nat>, outer: seq<nat>)
    requires ProjectColumn(column, inner).Some?
    requires forall k :: 0 <= k < |outer| ==> outer[k] < |inner|
    ensures ProjectColumn(ProjectColumn(column, inner).value, outer) ==
            ProjectColumn(column, seq(|outer|, k requires 0 <= k < |outer| => inner[outer[k]]))
  {
    var sub := ProjectColumn(column, inner).value;
    var composed := seq(|outer|, k requires 0 <= k < |outer| => inner[outer[k]]);
    assert forall k :: 0 <= k < |composed| ==> composed[k] < |column|;
    var once := ProjectColumn(column, composed);
    var twice := ProjectColumn(sub, outer);
    assert twice.value == once.value;
  }

  /** The loop over the keys of `squad_encoding_all`, building a new encoding
      whose every column is projected on the same sample. The dict's key
      order is not modelled; the keys are visited in an arbitrary order. */
  method ProjectEncoding<K, V>(encoding: map<K, seq<V>>, indices: seq<nat>) returns (r: Option<map<K, seq<V>>>)
    ensures r.Some? <==> forall key :: key in encoding ==> ProjectColumn(encoding[key], indices).Some?
    ensures r.Some? ==> r.value.Keys == encoding.Keys
    ensures r.Some? ==> forall key :: key in encoding ==>
              |r.value[key]| == |indices| &&
              forall j :: 0 <= j < |indices| ==> r.value[key][j] == encoding[key][indices[j]]
  {
    var subset: map<K, seq<V>> := map[];
    var todo := encoding.Keys;
    while todo != {}
      invariant todo <= encoding.Keys
      invariant subset.Keys == encoding.Keys - todo
      invariant forall key :: key in subset ==> ProjectColumn(encoding[key], indices) == Some(subset[key])
      decreases todo
    {
      var key :| key in todo;
      var column := ProjectColumn(encoding[key], indices);
      if column.None? {
        return None;
      }
      subset := subset[key := column.value];
      todo := todo - {key};
    }
    r := Some(subset);
  }
}

=== FILE: train_indices.dfy ===
/** The index list that `train` hands to the batch sampler
    (roberta_fine-tuning.py:102-111). `idx0` is the shuffled list of UNQOVER
    positions and `idx1` the shuffled list of SQuAD positions; the shuffles
    are inputs here. `B` is the train batch size. */
module TrainIndices {
  import opened PyBuiltins

  /** Without SQuAD: the full batches `idx0[i*B:(i+1)*B]`, then the remainder
      `idx0[(len//B)*B:]` when the length is not a multiple of `B`. */
  method SequentialIndices<T>(idx0: seq<T>, batchSize: nat) returns (indices: seq<T>)
    requires batchSize > 0
    ensures indices == idx0
  {
    indices := [];
    var full := |idx0| / batchSize;
    FullBatchesFit(|idx0|, batchSize);
    for i := 0 to full
      invariant Mul(i, batchSize) <= Mul(full, batchSize)
      invariant indices == idx0[..Mul(i, batchSize)]
    {
      MulMonotone(i + 1, full, batchSize);
      indices := indices + Slice(idx0, Mul(i, batchSize), Mul(i + 1, batchSize));
    }
    if |idx0| % batchSize != 0 {
      indices := indices + Slice(idx0, Mul(full, batchSize), |idx0|);
    } else {
      assert idx0[..|idx0|] == idx0;
    }
  }

  /** `(len//B)*B` full-batch positions fit in the list, and fill it exactly
      when `B` divides its length. */
  lemma FullBatchesFit(len: nat, batchSize: nat)
    requires batchSize > 0
    ensures Mul(len / batchSize, batchSize) <= len
    ensures len % batchSize == 0 ==> Mul(len / batchSize, batchSize) == len
  {
    MulProduct(len / batchSize, batchSize);
  }

  /** `a * b` as repeated addition, so that the solver unfolds products only
      where a proof asks for them. */
  function Mul(a: nat, b: nat): nat
  {
    if a == 0 then 0 else Mul(a - 1, b) + b
  }

  lemma {:induction false} MulProduct(a: nat, b: nat)
    ensures Mul(a, b) == a * b
  {
    if a > 0 {
      MulProduct(a - 1, b);
      assert (a - 1) * b + b == a * b;
    }
  }

  lemma {:induction false} MulMonotone(a: nat, b: nat, c: nat)
    requires a <= b
    ensures Mul(a, c) <= Mul(b, c)
    decreases b - a
  {
    if a < b {
      MulMonotone(a + 1, b, c);
    }
  }

  /** `x // 4` by repeated subtraction, kept apart from `/` for the same reason. */
  function Quarter(x: nat): nat
  {
    if x < 4 then 0 else Quarter(x - 4) + 1
  }

  lemma {:induction false} QuarterDivides(x: nat)
    ensures Quarter(x) == x / 4
  {
    if x >= 4 { QuarterDivides(x - 4); }
  }

  lemma QuarterMonotone(x: nat, y: nat)
    requires x <= y
    ensures Quarter(x) <= Quarter(y)
  {
    QuarterDivides(x);
    QuarterDivides(y);
  }

  /** Where the UNQOVER share of group `i` starts: `i*B*3//4`. */
  function UnqoverCut(batchSize: nat, i: nat): nat { Quarter(Mul(i, batchSize) * 3) }

  /** Where the SQuAD share of group `i` starts: `i*B//4`. */
  function SquadCut(batchSize: nat, i: nat): nat { Quarter(Mul(i, batchSize)) }

  lemma CutsAreQuarters(batchSize: nat, i: nat)
    ensures UnqoverCut(batchSize, i) == Mul(i, batchSize) * 3 / 4
    ensures SquadCut(batchSize, i) == Mul(i, batchSize) / 4
  {
    QuarterDivides(Mul(i, batchSize) * 3);
    QuarterDivides(Mul(i, batchSize));
  }

  /** Group `i` of the mixed list: the UNQOVER slice
      `idx0[i*B*3//4:(i+1)*B*3//4]` followed by the SQuAD slice
      `idx1[i*B//4:(i+1)*B//4]`, both clamped as Python clamps them. */
  function Group<T>(idx0: seq<T>, idx1: seq<T>, batchSize: nat, i: nat): seq<T>
  {
    Slice(idx0, UnqoverCut(batchSize, i), UnqoverCut(batchSize, i + 1)) +
    Slice(idx1, SquadCut(batchSize, i), SquadCut(batchSize, i + 1))
  }

  /** The first `n` groups, one after the other. */
  function Mixed<T>(idx0: seq<T>, idx1: seq<T>, batchSize: nat, n: nat): seq<T>
  {
    if n == 0 then [] else Mixed(idx0, idx1, batchSize, n - 1) + Group(idx0, idx1, batchSize, n - 1)
  }

  /** With SQuAD: `num_train // B` groups, each extending the list by its
      UNQOVER slice and then its SQuAD slice. */
  method MixedIndices<T>(idx0: seq<T>, idx1: seq<T>, numTrain: nat, batchSize: nat) returns (indices: seq<T>)
    requires batchSize > 0
    ensures indices == Mixed(idx0, idx1, batchSize, numTrain / batchSize)
  {
    indices := [];
    for i := 0 to numTrain / batchSize
      invariant indices == Mixed(idx0, idx1, batchSize, i)
    {
      ghost var before := indices;
      var lo0, hi0 := Mul(i, batchSize) * 3 / 4, Mul(i + 1, batchSize) * 3 / 4;
      var lo1, hi1 := Mul(i, batchSize) / 4, Mul(i + 1, batchSize) / 4;
      CutsAreQuarters(batchSize, i);
      CutsAreQuarters(batchSize, i + 1);
      indices := indices + Slice(idx0, lo0, hi0);
      indices := indices + Slice(idx1, lo1, hi1);
      MixedStep(idx0, idx1, batchSize, i);
    }
  }

  // ---------------------------------------------------------------------------
  // What the mixed list is made of

  /** `r` is `x` and `y` merged: every element of each, each in its own order. */
  ghost predicate IsInterleaving<T>(r: seq<T>, x: seq<T>, y: seq<T>)
    decreases |r|
  {
    if r == [] then x == [] && y == []
    else (x != [] && r[0] == x[0] && IsInterleaving(r[1..], x[1..], y)) ||
         (y != [] && r[0] == y[0] && IsInterleaving(r[1..], x, y[1..]))
  }

  lemma {:induction false} InterleaveRight<T>(y: seq<T>)
    ensures IsInterleaving(y, [], y)
    decreases |y|
  {
    if y != [] { InterleaveRight(y[1..]); }
  }

  lemma {:induction false} InterleaveConcat<T>(x: seq<T>, y: seq<T>)
    ensures IsInterleaving(x + y, x, y)
    decreases |x|
  {
    if x == [] {
      InterleaveRight(y);
      assert x + y == y;
    } else {
      InterleaveConcat(x[1..], y);
      assert (x + y)[1..] == x[1..] + y;
    }
  }

  lemma {:induction false} InterleavingAppend<T>(r1: seq<T>, x1: seq<T>, y1: seq<T>, r2: seq<T>, x2: seq<T>, y2: seq<T>)
    requires IsInterleaving(r1, x1, y1) && IsInterleaving(r2, x2, y2)
    ensures IsInterleaving(r1 + r2, x1 + x2, y1 + y2)
    decreases |r1|
  {
    if r1 == [] {
      assert r1 + r2 == r2 && x1 + x2 == x2 && y1 + y2 == y2;
    } else {
      assert (r1 + r2)[1..] == r1[1..] + r2;
      if x1 != [] && r1[0] == x1[0] && IsInterleaving(r1[1..], x1[1..], y1) {
        InterleavingAppend(r1[1..], x1[1..], y1, r2, x2, y2);
        assert (x1 + x2)[1..] == x1[1..] + x2;
      } else {
        InterleavingAppend(r1[1..], x1, y1[1..], r2, x2, y2);
        assert (y1 + y2)[1..] == y1[1..] + y2;
      }
    }
  }

  /** A merge holds exactly the elements of its two parts. */
  lemma {:induction false} InterleavingMultiset<T>(r: seq<T>, x: seq<T>, y: seq<T>)
    requires IsInterleaving(r, x, y)
    ensures multiset(r) == multiset(x) + multiset(y)
    decreases |r|
  {
    if r != [] {
      assert r == [r[0]] + r[1..];
      if x != [] && r[0] == x[0] && IsInterleaving(r[1..], x[1..], y) {
        InterleavingMultiset(r[1..], x[1..], y);
        assert x == [x[0]] + x[1..];
      } else {
        InterleavingMultiset(r[1..], x, y[1..]);
        assert y == [y[0]] + y[1..];
      }
    }
  }

  lemma CutsMonotone(batchSize: nat, i: nat)
    ensures UnqoverCut(batchSize, i) <= UnqoverCut(batchSize, i + 1)
    ensures SquadCut(batchSize, i) <= SquadCut(batchSize, i + 1)
  {
    QuarterMonotone(Mul(i, batchSize) * 3, Mul(i + 1, batchSize) * 3);
    QuarterMonotone(Mul(i, batchSize), Mul(i + 1, batchSize));
  }

  /** The mixed list of `n` groups is a merge of the first `n*B*3//4` UNQOVER
      indices and the first `n*B//4` SQuAD indices (each clamped to the list's
      length): each source is used in its own order and from its start, and
      nothing else is used. */
  lemma {:induction false} MixedSources<T>(idx0: seq<T>, idx1: seq<T>, batchSize: nat, n: nat)
    ensures IsInterleaving(Mixed(idx0, idx1, batchSize, n),
                           idx0[..Min(UnqoverCut(batchSize, n), |idx0|)],
                           idx1[..Min(SquadCut(batchSize, n), |idx1|)])
  {
    if n == 0 {
    } else {
      MixedSources(idx0, idx1, batchSize, n - 1);
      MixedSourcesStep(idx0, idx1, batchSize, n - 1);
    }
  }

  lemma MixedSourcesStep<T>(idx0: seq<T>, idx1: seq<T>, batchSize: nat, k: nat)
    requires IsInterleaving(Mixed(idx0, idx1, batchSize, k),
                            idx0[..Min(UnqoverCut(batchSize, k), |idx0|)],
                            idx1[..Min(SquadCut(batchSize, k), |idx1|)])
    ensures IsInterleaving(Mixed(idx0, idx1, batchSize, k + 1),
                           idx0[..Min(UnqoverCut(batchSize, k + 1), |idx0|)],
                           idx1[..Min(SquadCut(batchSize, k + 1), |idx1|)])
  {
    var a0, a1 := UnqoverCut(batchSize, k), UnqoverCut(batchSize, k + 1);
    var b0, b1 := SquadCut(batchSize, k), SquadCut(batchSize, k + 1);
    CutsMonotone(batchSize, k);
    MixedStep(idx0, idx1, batchSize, k);
    InterleaveExtend(Mixed(idx0, idx1, batchSize, k), idx0[..Min(a0, |idx0|)], idx1[..Min(b0, |idx1|)],
                     Slice(idx0, a0, a1), Slice(idx1, b0, b1));
    PrefixThenSlice(idx0, a0, a1);
    PrefixThenSlice(idx1, b0, b1);
  }

  lemma MixedStep<T>(idx0: seq<T>, idx1: seq<T>, batchSize: nat, i: nat)
    ensures Mixed(idx0, idx1, batchSize, i + 1) ==
            Mixed(idx0, idx1, batchSize, i) +
            (Slice(idx0, UnqoverCut(batchSize, i), UnqoverCut(batchSize, i + 1)) +
             Slice(idx1, SquadCut(batchSize, i), SquadCut(batchSize, i + 1)))
  {
  }

  /** Merging two parts onto the ends of a merge gives a merge. */
  lemma InterleaveExtend<T>(r: seq<T>, x: seq<T>, y: seq<T>, a: seq<T>, b: seq<T>)
    requires IsInterleaving(r, x, y)
    ensures IsInterleaving(r + (a + b), x + a, y + b)
  {
    InterleaveConcat(a, b);
    InterleavingAppend(r, x, y, a + b, a, b);
  }

  /** The mixed list uses each index as often as the two sources hold it, no
      more: its length is the sum of the two clamped prefixes, so it is never
      longer than both sources together. */
  lemma MixedLength<T>(idx0: seq<T>, idx1: seq<T>, batchSize: nat, n: nat)
    ensures multiset(Mixed(idx0, idx1, batchSize, n)) ==
            multiset(idx0[..Min(UnqoverCut(batchSize, n), |idx0|)]) + multiset(idx1[..Min(SquadCut(batchSize, n), |idx1|)])
    ensures |Mixed(idx0, idx1, batchSize, n)| ==
            Min(UnqoverCut(batchSize, n), |idx0|) + Min(SquadCut(batchSize, n), |idx1|)
    ensures |Mixed(idx0, idx1, batchSize, n)| <= |idx0| + |idx1|
  {
    var r := Mixed(idx0, idx1, batchSize, n);
    MixedSources(idx0, idx1, batchSize, n);
    InterleavingMultiset(r, idx0[..Min(UnqoverCut(batchSize, n), |idx0|)], idx1[..Min(SquadCut(batchSize, n), |idx1|)]);
    assert |r| == |multiset(r)|;
  }

  /** When the two shuffled lists hold distinct positions (as the script's
      `idx0` and `idx1` do), no position appears twice in the mixed list. */
  lemma MixedNoRepeats<T>(idx0: seq<T>, idx1: seq<T>, batchSize: nat, n: nat)
    requires NoRepeats(idx0 + idx1)
    ensures NoRepeats(Mixed(idx0, idx1, batchSize, n))
  {
    MixedLength(idx0, idx1, batchSize, n);
    PrefixesWithin(idx0, idx1, Min(UnqoverCut(batchSize, n), |idx0|), Min(SquadCut(batchSize, n), |idx1|));
    WithinNoRepeats(Mixed(idx0, idx1, batchSize, n), idx0 + idx1);
  }

  lemma PrefixesWithin<T>(a: seq<T>, b: seq<T>, i: nat, j: nat)
    requires i <= |a| && j <= |b|
    ensures multiset(a[..i]) + multiset(b[..j]) <= multiset(a + b)
  {
    assert a == a[..i] + a[i..];
    assert b == b[..j] + b[j..];
    assert multiset(a + b) == multiset(a[..i]) + multiset(a[i..]) + multiset(b[..j]) + multiset(b[j..]);
  }

  /** Drawing from a list without repeats gives a list without repeats. */
  lemma WithinNoRepeats<T>(r: seq<T>, whole: seq<T>)
    requires multiset(r) <= multiset(whole) && NoRepeats(whole)
    ensures NoRepeats(r)
  {
    forall x | x in r ensures multiset(r)[x] == 1 {
      assert x in multiset(whole);
    }
  }

  // ---------------------------------------------------------------------------
  // How the groups line up with the batch sampler's batches

  lemma {:induction false} MulByFour(n: nat, q: nat)
    ensures Mul(n, 4 * q) == 4 * Mul(n, q)
  {
    if n > 0 { MulByFour(n - 1, q); }
  }

  lemma CutsExact(batchSize: nat, n: nat)
    requires batchSize % 4 == 0
    ensures UnqoverCut(batchSize, n) == Mul(n, batchSize / 4) * 3
    ensures SquadCut(batchSize, n) == Mul(n, batchSize / 4)
  {
    MulByFour(n, batchSize / 4);
    QuarterDivides(Mul(n, batchSize) * 3);
    QuarterDivides(Mul(n, batchSize));
  }

  /** A list of fewer groups is a prefix of one with more. */
  lemma {:induction false} MixedPrefix<T>(idx0: seq<T>, idx1: seq<T>, batchSize: nat, m: nat, n: nat)
    requires m <= n
    ensures Mixed(idx0, idx1, batchSize, m) <= Mixed(idx0, idx1, batchSize, n)
    decreases n - m
  {
    if m < n {
      MixedPrefix(idx0, idx1, batchSize, m, n - 1);
      var prev := Mixed(idx0, idx1, batchSize, n - 1);
      PrefixOfAppend(prev, Group(idx0, idx1, batchSize, n - 1));
      PrefixTransitive(Mixed(idx0, idx1, batchSize, m), prev, Mixed(idx0, idx1, batchSize, n));
    }
  }

  lemma PrefixOfAppend<T>(a: seq<T>, b: seq<T>)
    ensures a <= a + b
  {
    assert (a + b)[..|a|] == a;
  }

  lemma PrefixTransitive<T>(a: seq<T>, b: seq<T>, c: seq<T>)
    requires a <= b && b <= c
    ensures a <= c
  {
    assert c[..|b|][..|a|] == c[..|a|];
  }

  /** With `B = 4q` and enough indices, the first `n` groups hold `n*B` indices. */
  lemma MixedExactLength<T>(idx0: seq<T>, idx1: seq<T>, batchSize: nat, n: nat)
    requires batchSize % 4 == 0
    requires UnqoverCut(batchSize, n) <= |idx0| && SquadCut(batchSize, n) <= |idx1|
    ensures |Mixed(idx0, idx1, batchSize, n)| == Mul(n, batchSize)
  {
    CutsExact(batchSize, n);
    MulByFour(n, batchSize / 4);
    assert 4 * (batchSize / 4) == batchSize;
    MixedLength(idx0, idx1, batchSize, n);
  }

  /** With `B = 4q`, group `i` spans exactly `3q` UNQOVER and `q` SQuAD positions. */
  lemma CutWidths(batchSize: nat, i: nat)
    requires batchSize % 4 == 0
    ensures UnqoverCut(batchSize, i + 1) == UnqoverCut(batchSize, i) + batchSize / 4 * 3
    ensures SquadCut(batchSize, i + 1) == SquadCut(batchSize, i) + batchSize / 4
  {
    CutsExact(batchSize, i);
    CutsExact(batchSize, i + 1);
  }

  lemma CutsMonotoneRange(batchSize: nat, i: nat, n: nat)
    requires i <= n
    ensures UnqoverCut(batchSize, i) <= UnqoverCut(batchSize, n)
    ensures SquadCut(batchSize, i) <= SquadCut(batchSize, n)
    decreases n - i
  {
    if i < n {
      CutsMonotone(batchSize, i);
      CutsMonotoneRange(batchSize, i + 1, n);
    }
  }

  /** When `B` is a multiple of 4 and both sources are long enough, group `i`
      holds exactly `3B/4` UNQOVER indices, then `B/4` SQuAD indices, and
      occupies positions `i*B .. (i+1)*B - 1` of the list: it is exactly the
      `i`-th batch of `B` that the batch sampler cuts. */
  lemma GroupsAreBatches<T>(idx0: seq<T>, idx1: seq<T>, batchSize: nat, n: nat, i: nat)
    requires batchSize % 4 == 0 && i < n
    requires UnqoverCut(batchSize, n) <= |idx0| && SquadCut(batchSize, n) <= |idx1|
    ensures UnqoverCut(batchSize, i + 1) == UnqoverCut(batchSize, i) + batchSize / 4 * 3 <= |idx0|
    ensures SquadCut(batchSize, i + 1) == SquadCut(batchSize, i) + batchSize / 4 <= |idx1|
    ensures |Mixed(idx0, idx1, batchSize, n)| == Mul(n, batchSize)
    ensures Mul(i, batchSize) + batchSize <= Mul(n, batchSize)
    ensures Mixed(idx0, idx1, batchSize, n)[Mul(i, batchSize)..Mul(i, batchSize) + batchSize] ==
            idx0[UnqoverCut(batchSize, i)..UnqoverCut(batchSize, i + 1)] +
            idx1[SquadCut(batchSize, i)..SquadCut(batchSize, i + 1)]
  {
    CutsMonotoneRange(batchSize, i + 1, n);
    CutWidths(batchSize, i);
    GroupPosition(idx0, idx1, batchSize, n, i);
  }

  lemma GroupPosition<T>(idx0: seq<T>, idx1: seq<T>, batchSize: nat, n: nat, i: nat)
    requires batchSize % 4 == 0 && i < n
    requires UnqoverCut(batchSize, n) <= |idx0| && SquadCut(batchSize, n) <= |idx1|
    ensures |Mixed(idx0, idx1, batchSize, n)| == Mul(n, batchSize)
    ensures Mul(i, batchSize) + batchSize <= Mul(n, batchSize)
    ensures Mixed(idx0, idx1, batchSize, n)[Mul(i, batchSize)..Mul(i, batchSize) + batchSize] == Group(idx0, idx1, batchSize, i)
  {
    GroupLengths(idx0, idx1, batchSize, n, i);
    MixedPrefix(idx0, idx1, batchSize, i + 1, n);
    AppendedWithin(Mixed(idx0, idx1, batchSize, n), Mixed(idx0, idx1, batchSize, i), Group(idx0, idx1, batchSize, i));
  }

  /** The lengths `GroupPosition` needs: `i` groups hold `i*B` positions and
      group `i` holds `B`. */
  lemma GroupLengths<T>(idx0: seq<T>, idx1: seq<T>, batchSize: nat, n: nat, i: nat)
    requires batchSize % 4 == 0 && i < n
    requires UnqoverCut(batchSize, n) <= |idx0| && SquadCut(batchSize, n) <= |idx1|
    ensures |Mixed(idx0, idx1, batchSize, n)| == Mul(n, batchSize)
    ensures |Mixed(idx0, idx1, batchSize, i)| == Mul(i, batchSize)
    ensures |Group(idx0, idx1, batchSize, i)| == batchSize
    ensures Mul(i, batchSize) + batchSize <= Mul(n, batchSize)
  {
    MixedExactLength(idx0, idx1, batchSize, n);
    assert |Mixed(idx0, idx1, batchSize, i + 1)| == Mul(i + 1, batchSize) by {
      CutsMonotoneRange(batchSize, i + 1, n);
      MixedExactLength(idx0, idx1, batchSize, i + 1);
    }
    assert |Mixed(idx0, idx1, batchSize, i)| == Mul(i, batchSize) by {
      CutsMonotoneRange(batchSize, i, n);
      MixedExactLength(idx0, idx1, batchSize, i);
    }
    MulMonotone(i + 1, n, batchSize);
  }

  lemma AppendedWithin<T>(m: seq<T>, before: seq<T>, g: seq<T>)
    requires before + g <= m
    ensures m[|before|..|before| + |g|] == g
  {
    assert m[..|before| + |g|] == before + g;
  }

  /** When `B` is not a multiple of 4 the first group is one short of a batch:
      `B*3//4 + B//4 == B - 1`. The batch sampler's first batch then takes
      the first index of group 1 as well, so batches do not keep the 3:1
      split group by group. */
  lemma FirstGroupShort<T>(idx0: seq<T>, idx1: seq<T>, batchSize: nat)
    requires batchSize % 4 != 0
    requires UnqoverCut(batchSize, 1) <= |idx0| && SquadCut(batchSize, 1) <= |idx1|
    ensures |Mixed(idx0, idx1, batchSize, 1)| == batchSize - 1
  {
    MixedLength(idx0, idx1, batchSize, 1);
    assert Mul(1, batchSize) == batchSize;
    QuarterDivides(batchSize * 3);
    QuarterDivides(batchSize);
    ShareLoss(batchSize);
  }

  /** Integer division loses exactly one position out of `B` unless 4 divides `B`. */
  lemma ShareLoss(batchSize: nat)
    requires batchSize % 4 != 0
    ensures batchSize * 3 / 4 + batchSize / 4 == batchSize - 1
  {
    var q, rem := batchSize / 4, batchSize % 4;
    assert batchSize == 4 * q + rem;
    if rem == 1 {
      assert batchSize * 3 == 4 * (3 * q) + 3;
    } else if rem == 2 {
      assert batchSize * 3 == 4 * (3 * q + 1) + 2;
    } else {
      assert batchSize * 3 == 4 * (3 * q + 2) + 1;
    }
  }
}

=== FILE: training_counters.dfy ===
/** The bookkeeping of the training loop (roberta_fine-tuning.py:194-283):
    which batches are skipped after a resume, which ones are dropped because
    none of their examples is relevant, when gradient accumulation completes
    an optimizer step, and when `max_steps` ends the run. A batch is modelled
    by its `interventions` column; the forward and backward passes and the
    optimizer are not part of this model. */
module TrainingLoop {
  import opened PyBuiltins
  import Resume

  /** A batch takes part in training when some example in it is not marked
      irrelevant: `torch.where(interventions != -2)` is not empty. */
  predicate HasRelevant(interventions: seq<int>)
  {
    exists i :: 0 <= i < |interventions| && interventions[i] != -2
  }

  /** `global_step`, `steps_trained_in_current_epoch`, and whether the
      `max_steps` check has broken out of the loops. */
  datatype Counters = Counters(globalStep: int, stepsToSkip: int, stopped: bool)

  /** The effect of the batch at position `step` of an epoch (lines 205-282). */
  function Advance(c: Counters, step: nat, batch: seq<int>, accumulation: int, maxSteps: int): (d: Counters)
    requires accumulation != 0
    ensures d.globalStep == c.globalStep || d.globalStep == c.globalStep + 1
    ensures d.globalStep == c.globalStep + 1 <==>
              !c.stopped && c.stepsToSkip <= 0 && HasRelevant(batch) && FloorMod(step + 1, accumulation) == 0
    ensures d.stepsToSkip == if !c.stopped && c.stepsToSkip > 0 then c.stepsToSkip - 1 else c.stepsToSkip
    ensures c.stopped ==> d == c
    ensures !c.stopped ==>
              (d.stopped <==> c.stepsToSkip <= 0 && HasRelevant(batch) && maxSteps > 0 && d.globalStep > maxSteps)
  {
    if c.stopped then c
    else if c.stepsToSkip > 0 then c.(stepsToSkip := c.stepsToSkip - 1)
    else if !HasRelevant(batch) then c
    else
      var g := if FloorMod(step + 1, accumulation) == 0 then c.globalStep + 1 else c.globalStep;
      c.(globalStep := g, stopped := maxSteps > 0 && g > maxSteps)
  }

  /** The counters after the batches of one epoch, in order. */
  function EpochRun(c: Counters, batches: seq<seq<int>>, accumulation: int, maxSteps: int): Counters
    requires accumulation != 0
  {
    if batches == [] then c
    else Advance(EpochRun(c, batches[..|batches| - 1], accumulation, maxSteps),
                 |batches| - 1, batches[|batches| - 1], accumulation, maxSteps)
  }

  /** The check after each epoch (line 280): the loop over epochs also stops
      once `global_step` has passed `max_steps`. */
  function EndEpoch(c: Counters, maxSteps: int): Counters
  {
    c.(stopped := c.stopped || (maxSteps > 0 && c.globalStep > maxSteps))
  }

  /** The counters after a sequence of epochs. */
  function TrainRun(c: Counters, epochs: seq<seq<seq<int>>>, accumulation: int, maxSteps: int): Counters
    requires accumulation != 0
  {
    if epochs == [] then c
    else EndEpoch(EpochRun(TrainRun(c, epochs[..|epochs| - 1], accumulation, maxSteps),
                           epochs[|epochs| - 1], accumulation, maxSteps), maxSteps)
  }

  // ---------------------------------------------------------------------------
  // What the counters do over an epoch

  /** `n // a` grows by one exactly at the multiples of `a`. */
  lemma DivStep(n: nat, a: nat)
    requires n >= 1 && a > 0
    ensures n / a == (n - 1) / a + (if n % a == 0 then 1 else 0)
  {
    var q, r := (n - 1) / a, (n - 1) % a;
    assert n - 1 == q * a + r && 0 <= r < a;
    if r + 1 == a {
      assert n == (q + 1) * a;
      DivUnique(n, a, q + 1, 0);
    } else {
      assert n == q * a + (r + 1);
      DivUnique(n, a, q, r + 1);
    }
  }

  lemma DivUnique(n: nat, a: nat, q: nat, r: nat)
    requires a > 0 && n == q * a + r && r < a
    ensures n / a == q && n % a == r
  {
    var q', r' := n / a, n % a;
    assert q' * a + r' == q * a + r;
    if q' < q {
      ProductGap(q, q', a);
    } else if q' > q {
      ProductGap(q', q, a);
    }
  }

  /** Two multiples of `a` with different factors are at least `a` apart. */
  lemma ProductGap(x: nat, y: nat, a: nat)
    requires x > y
    ensures x * a >= y * a + a
  {
    var d := x - y;
    assert x * a == y * a + d * a;
    assert d * a == (d - 1) * a + a;
  }

  /** Over an epoch whose every batch is relevant, with no `max_steps`, the
      first `k = min(skip, n)` batches only count the skip down and every
      later batch whose position `step` has `(step + 1) % a == 0` ends an
      optimizer step: `global_step` grows by `n // a - k // a`. */
  lemma {:induction false} EpochSteps(c: Counters, batches: seq<seq<int>>, accumulation: int, maxSteps: int)
    requires accumulation > 0 && maxSteps <= 0 && !c.stopped && c.stepsToSkip >= 0
    requires forall i :: 0 <= i < |batches| ==> HasRelevant(batches[i])
    ensures var k := Min(c.stepsToSkip, |batches|);
            EpochRun(c, batches, accumulation, maxSteps) ==
            Counters(c.globalStep + |batches| / accumulation - k / accumulation, c.stepsToSkip - k, false)
  {
    var n := |batches|;
    if n > 0 {
      var init := batches[..n - 1];
      EpochSteps(c, init, accumulation, maxSteps);
      FloorDivPositive(n, accumulation);
      if n - 1 >= c.stepsToSkip {
        DivStep(n, accumulation);
      }
    }
  }

  /** A fresh epoch of `n` relevant batches takes `n // a` optimizer steps. */
  lemma FullEpochSteps(c: Counters, batches: seq<seq<int>>, accumulation: int, maxSteps: int)
    requires accumulation > 0 && maxSteps <= 0 && !c.stopped && c.stepsToSkip == 0
    requires forall i :: 0 <= i < |batches| ==> HasRelevant(batches[i])
    ensures EpochRun(c, batches, accumulation, maxSteps).globalStep == c.globalStep + |batches| / accumulation
  {
    EpochSteps(c, batches, accumulation, maxSteps);
  }

  /** After resuming from a saved `global_step = g` with `s = n // a` steps per
      epoch, the skip counts `g % s` BATCHES although it was computed from
      optimizer steps: the resumed epoch ends at `g + n // a - (g % s) // a`,
      which is the start of the next epoch, `g - g % s + s`, exactly when
      `a == 1` or the checkpoint lies on an epoch boundary (`g % s == 0`). */
  lemma ResumedEpochSteps(g: nat, batches: seq<seq<int>>, accumulation: int, maxSteps: int)
    requires accumulation > 0 && maxSteps <= 0 && |batches| / accumulation > 0
    requires forall i :: 0 <= i < |batches| ==> HasRelevant(batches[i])
    ensures var s := |batches| / accumulation;
            var end := EpochRun(Counters(g, g % s, false), batches, accumulation, maxSteps).globalStep;
            end == g + s - (g % s) / accumulation &&
            (end == g - g % s + s <==> accumulation == 1 || g % s == 0)
  {
    var s := |batches| / accumulation;
    var skip := g % s;
    assert skip < s;
    DivAtMost(|batches|, accumulation);
    EpochSteps(Counters(g, skip, false), batches, accumulation, maxSteps);
    DivShrinks(skip, accumulation);
  }

  /** Dividing by `a` leaves `x` unchanged exactly when `x == 0` or `a == 1`. */
  lemma DivShrinks(x: nat, a: nat)
    requires a > 0
    ensures x / a == x <==> x == 0 || a == 1
  {
    var q := x / a;
    assert x == q * a + x % a;
    if a > 1 {
      ProductGap(a, 1, q);
      assert q * a >= q + q;
    } else {
      assert x / 1 == x;
    }
  }

  lemma DivAtMost(n: nat, a: nat)
    requires a > 0
    ensures n / a <= n
  {
    var q := n / a;
    assert n == q * a + n % a;
    if a > 1 {
      ProductGap(a, 1, q);
    }
  }

  /** Skipped batches and irrelevant batches never move `global_step`, and no
      batch moves it by more than one. */
  lemma {:induction false} EpochMonotone(c: Counters, batches: seq<seq<int>>, accumulation: int, maxSteps: int)
    requires accumulation != 0
    ensures c.globalStep <= EpochRun(c, batches, accumulation, maxSteps).globalStep <= c.globalStep + |batches|
    ensures c.stopped ==> EpochRun(c, batches, accumulation, maxSteps) == c
  {
    if batches != [] {
      EpochMonotone(c, batches[..|batches| - 1], accumulation, maxSteps);
    }
  }

  /** Below `max_steps`, the run stops exactly when `global_step` first
      reaches `max_steps + 1`, and is then left alone. */
  predicate BelowMax(c: Counters, maxSteps: int)
  {
    maxSteps > 0 && (if c.stopped then c.globalStep == maxSteps + 1 else c.globalStep <= maxSteps)
  }

  lemma {:induction false} EpochKeepsBelowMax(c: Counters, batches: seq<seq<int>>, accumulation: int, maxSteps: int)
    requires accumulation != 0 && BelowMax(c, maxSteps)
    ensures BelowMax(EpochRun(c, batches, accumulation, maxSteps), maxSteps)
  {
    if batches != [] {
      EpochKeepsBelowMax(c, batches[..|batches| - 1], accumulation, maxSteps);
    }
  }

  /** Over any number of epochs, a run that starts at or below `max_steps`
      never takes `global_step` past `max_steps + 1`, and when it stops it is
      at exactly `max_steps + 1`. */
  lemma {:induction false} TrainStopsJustPastMax(c: Counters, epochs: seq<seq<seq<int>>>, accumulation: int, maxSteps: int)
    requires accumulation != 0 && BelowMax(c, maxSteps)
    ensures BelowMax(TrainRun(c, epochs, accumulation, maxSteps), maxSteps)
  {
    if epochs != [] {
      TrainStopsJustPastMax(c, epochs[..|epochs| - 1], accumulation, maxSteps);
      EpochKeepsBelowMax(TrainRun(c, epochs[..|epochs| - 1], accumulation, maxSteps),
                         epochs[|epochs| - 1], accumulation, maxSteps);
    }
  }

  // ---------------------------------------------------------------------------
  // The loop itself

  class Trainer {
    var globalStep: int
    var stepsToSkip: int
    var stopped: bool
    const accumulation: int
    const maxSteps: int

    /** The counters as `train` sets them up before its first epoch. */
    constructor (start: Resume.ResumeState, accumulation: int, maxSteps: int)
      requires accumulation != 0
      ensures globalStep == start.globalStep && stepsToSkip == start.stepsInEpoch && !stopped
      ensures this.accumulation == accumulation && this.maxSteps == maxSteps
    {
      globalStep := start.globalStep;
      stepsToSkip := start.stepsInEpoch;
      stopped := false;
      this.accumulation := accumulation;
      this.maxSteps := maxSteps;
    }

    function State(): Counters
      reads this
    {
      Counters(globalStep, stepsToSkip, stopped)
    }

    /** One pass of the inner loop's body. */
    method OnBatch(step: nat, batch: seq<int>)
      requires accumulation != 0 && !stopped
      modifies this
      ensures State() == Advance(old(State()), step, batch, accumulation, maxSteps)
    {
      if stepsToSkip > 0 {
        stepsToSkip := stepsToSkip - 1;
        return;
      }
      if !HasRelevant(batch) {
        return;
      }
      if FloorMod(step + 1, accumulation) == 0 {
        globalStep := globalStep + 1;
      }
      if maxSteps > 0 && globalStep > maxSteps {
        stopped := true;
      }
    }

    /** `for step, batch in enumerate(epoch_iterator)`, left early by the
        `max_steps` check. */
    method RunEpoch(batches: seq<seq<int>>)
      requires accumulation != 0
      modifies this
      ensures State() == EpochRun(old(State()), batches, accumulation, maxSteps)
    {
      var i := 0;
      while i < |batches| && !stopped
        invariant 0 <= i <= |batches|
        invariant State() == EpochRun(old(State()), batches[..i], accumulation, maxSteps)
      {
        assert batches[..i + 1][..i] == batches[..i];
        OnBatch(i, batches[i]);
        i := i + 1;
      }
      if i < |batches| {
        StoppedRest(old(State()), batches, i);
      } else {
        assert batches[..i] == batches;
      }
    }

    /** Once stopped, the rest of the epoch leaves the counters alone. */
    lemma {:induction false} StoppedRest(c: Counters, batches: seq<seq<int>>, i: nat)
      requires accumulation != 0 && i <= |batches|
      requires EpochRun(c, batches[..i], accumulation, maxSteps).stopped
      ensures EpochRun(c, batches, accumulation, maxSteps) == EpochRun(c, batches[..i], accumulation, maxSteps)
      decreases |batches| - i
    {
      if i < |batches| {
        assert batches[..i + 1][..i] == batches[..i];
        StoppedRest(c, batches, i + 1);
      } else {
        assert batches[..i] == batches;
      }
    }

    /** `for _ in train_iterator`: the epochs one after the other, each
        followed by the outer `max_steps` check. */
    method Train(epochs: seq<seq<seq<int>>>)
      requires accumulation != 0
      modifies this
      ensures State() == TrainRun(old(State()), epochs, accumulation, maxSteps)
    {
      var e := 0;
      while e < |epochs| && !stopped
        invariant 0 <= e <= |epochs|
        invariant State() == TrainRun(old(State()), epochs[..e], accumulation, maxSteps)
      {
        assert epochs[..e + 1][..e] == epochs[..e];
        RunEpoch(epochs[e]);
        if maxSteps > 0 && globalStep > maxSteps {
          stopped := true;
        }
        e := e + 1;
      }
      if e < |epochs| {
        StoppedEpochs(old(State()), epochs, e);
      } else {
        assert epochs[..e] == epochs;
      }
    }

    lemma {:induction false} StoppedEpochs(c: Counters, epochs: seq<seq<seq<int>>>, e: nat)
      requires accumulation != 0 && e <= |epochs|
      requires TrainRun(c, epochs[..e], accumulation, maxSteps).stopped
      ensures TrainRun(c, epochs, accumulation, maxSteps) == TrainRun(c, epochs[..e], accumulation, maxSteps)
      decreases |epochs| - e
    {
      if e < |epochs| {
        assert epochs[..e + 1][..e] == epochs[..e];
        EpochMonotone(TrainRun(c, epochs[..e], accumulation, maxSteps), epochs[e], accumulation, maxSteps);
        StoppedEpochs(c, epochs, e + 1);
      } else {
        assert epochs[..e] == epochs;
      }
    }
  }
}
